=== FILE: README.md ===
# Routinet e-learning core, modelled in Dafny

Routinet is a course-management site: teachers publish courses made of
modules, resources and assignments ("devoirs"); students enroll
("inscription"), hand in submissions ("soumissions") and are graded;
administrators manage the course events ("évènements"). This project models
the rule layer that sits over the database:

- accounts, their one-to-one profile and closed role set, and the sign-up
  role/code gate;
- the enrollment ledger, a state machine over (student, course) pairs;
- the submission find-or-create;
- the authorization checks of the course, module, assignment and event
  views, and the rule for who may see a course's content;
- the instructor-course matching by normalized display name;
- the resource form's check and the fields the submission and grading forms
  may write;
- the derived values (active-student count, the two lateness predicates,
  the module/resource display order) and the cascading deletes.

The database is an immutable `State` (`learning.dfy`). Each table is a map
from row id to row, and `nextId` stands for the auto-increment id. The
uniqueness constraints and the foreign keys make up the invariant `Valid`,
and every view keeps it. A view is a pure function from the store, the
signed-in user and the submitted form to a `Step`: the new store and a
`Reply`. A form that is absent stands for a GET or a form that failed the
framework's own field validation. A form that is present holds the values
as the framework cleans them, so text fields have their surrounding
whitespace already stripped (a teacher code typed as " CODE " compares as
"CODE"). The checks the code writes by hand are
modelled explicitly. Times are integers. Decimal fields are integer
hundredths, and `FitsDecimal52` is the 5-digit, 2-decimal column width.
Default values the views rely on are the constants `DefaultRole` (student)
and `DefaultInscriptionStatut` (active).

Files: `base.dfy` (Option/Result), `text.dfy` (split/strip/join/lower on
ASCII), `accounts.dfy`, `learning.dfy` (enums, rows, store, invariant,
lookups, count, lateness), `ordering.dfy`, `names.dfy`, `cascade.dfy`,
`learning_forms.dfy`, `permissions.dfy`, `views.dfy`, `enrollment.dfy`,
`submission.dfy`.

Where the code and its documentation differ, the model follows the code:

- Withdrawal sets the row to cancelled whatever its previous status was.
  The view does not check the role either.
- The submission view checks only for an active enrollment, not the role.
- The enrollment view does not look at the HTTP method. A non-student is
  turned away before the course is even looked up.
- The minimum of 0 on the maximum mark and on the mark is only a browser
  hint. Negative values and marks above the maximum pass.
- The assignment form offers every module of every course. An assignment
  can therefore hang off a module of another course, and deleting that
  course then removes the assignment (`Cascade.FallsWithCours`).
- In the global assignment form, a course the user does not own is not a
  valid choice, so the form fails before the view's own ownership check.
  The model answers `FormShown` and never reaches that check.
- No view grades a submission. Only the grading form exists, and it does
  not set the grading date.
- An administrator may delete a draft course but may not see its content.

## Model

| member | source | states |
|---|---|---|
| Text.Strip | Routinet/e_learning/views.py:22 | the result is a slice of the input with only whitespace before and after it, and itself has no surrounding whitespace; an already trimmed string is returned as is |
| Text.Lower | Routinet/e_learning/views.py:22 | same length; each upper-case ASCII letter becomes its lower-case letter and every other character stays, so whitespace stays exactly where the input has it |
| Text.WordsAreWords | Routinet/e_learning/views.py:22 | `Words`, the model of `str.split()`, yields only non-empty words without whitespace |
| Text.WordsIsScan | Routinet/e_learning/views.py:22 | `Words` agrees on every input with a reference splitter that reads one character at a time and ends a word at each whitespace character, so tabs, newlines and runs of whitespace separate words alike |
| Text.WordsOfJoin | Routinet/e_learning/views.py:22 | splitting a single-space join of words gives back the words |
| Text.JoinCanonical | Routinet/e_learning/views.py:22 | joining words with one space leaves no leading, trailing or repeated whitespace |
| Text.WordsEmptyIffBlank | Routinet/e_learning/views.py:20-22 | a string splits into no words exactly when it is all whitespace |
| Names.NormalizeName | Routinet/e_learning/views.py:13-22 | a missing or empty name gives ""; the result is lower-case with single inner spaces and no surrounding whitespace; it is "" exactly when the input is blank |
| Names.NormalizeNameWords | Routinet/e_learning/views.py:22 | the normalized name is the lower-cased words of the input joined by single spaces |
| Names.NormalizeNameScans | Routinet/e_learning/views.py:20-22 | the normalized name is the lower-cased words read by the character-at-a-time splitter, one space apart |
| Names.NormalizeNameIdempotent | Routinet/e_learning/views.py:13-22 | normalizing a normalized name changes nothing |
| Names.NamesMatchIff | Routinet/e_learning/views.py:43-45 | two names normalize alike exactly when they have the same words up to letter case |
| Names.NormalizeNameExamples | Routinet/e_learning/views.py:16-18 | "  Iyed   Iyed " and "IYED IYED" both normalize to "iyed iyed" |
| Names.TaughtSelects | Routinet/e_learning/views.py:34-48 | the reference selection keeps catalogue order and holds exactly the courses whose teacher exists and matches the user's normalized name |
| Names.KeepUpToPrefix | Routinet/e_learning/views.py:40-46 | appending each passing entry in one front-to-back pass yields the reference selection of the entries seen so far |
| Names.InstructorCourses | Routinet/e_learning/views.py:25-48 | the loop returns the reference selection: a subsequence of the catalogue holding exactly the courses whose teacher exists and has the user's normalized display name |
| Accounts.ParseRole | Routinet/comptes/forms.py:10-14 | only the three stored codes name a role, and each role's code names it |
| Accounts.ExactlyOneRole | Routinet/comptes/models.py:34-41 | every profile is exactly one of student, teacher, administrator |
| Accounts.NewProfile | Routinet/comptes/models.py:18-22 | a new profile is a student's, with blank optional fields |
| Accounts.DisplayName | Routinet/comptes/models.py:43-44 | the full name when it is non-empty (then it has no surrounding whitespace), the username otherwise |
| Accounts.FullName | Routinet/comptes/models.py:43-44 | the user's full name is a slice of "first last" with only whitespace cut off around it, and has no surrounding whitespace itself |
| Accounts.FullNameOfTrimmedNames | Routinet/comptes/models.py:43-44 | trimmed non-empty first and last names are shown as the two joined by one space |
| Accounts.BlankNamesShowUsername | Routinet/comptes/models.py:43-44 | a user whose first and last names are blank is shown by username |
| Accounts.CreateUser | Routinet/comptes/models.py:47-50 | a new user gets a fresh id and exactly one new profile, the default one; every other profile is unchanged; the directory stays one-to-one |
| Accounts.CleanSignup | Routinet/comptes/forms.py:79-92 | an unknown role is refused; a student passes whatever the code; a teacher passes exactly with the teacher code, an administrator exactly with the administrator code |
| Accounts.StudentCodeIgnored | Routinet/comptes/forms.py:85-90 | the student outcome is the same for every code |
| Accounts.SignUp | Routinet/comptes/forms.py:94-106 | fails exactly when the gate fails; otherwise adds one user carrying the form's username, email and names, whose profile is the hook's blank default profile with the validated role, and leaves other profiles alone |
| Accounts.UpdateProfile | Routinet/comptes/forms.py:182-191 | names and email are copied onto the linked user and the other fields onto the profile; role and username stay; other users are untouched |
| Learning.ParseCoursStatut | Routinet/e_learning/models.py:10-14 | only the three stored codes name a course status, and each status's code names it |
| Learning.ParseInscriptionStatut | Routinet/e_learning/models.py:51-56 | only the four stored codes name an enrollment status, and each status's code names it |
| Learning.FindInscription | Routinet/e_learning/models.py:66 | under the uniqueness invariant, finds the pair's row exactly when one exists, and it is the only one |
| Learning.FindSoumission | Routinet/e_learning/models.py:163 | under the uniqueness invariant, finds the pair's submission exactly when one exists, and it is the only one |
| Learning.NombreEtudiants | Routinet/e_learning/models.py:38-40 | the count is at most the course's enrollment rows, and is zero exactly when none of them is active |
| Learning.DevoirRetardThreshold | Routinet/e_learning/models.py:142-144 | `DevoirEnRetard` (clock strictly past the deadline) is false at the deadline, true one tick later, and stays true as the clock advances |
| Learning.LatenessSignalsDisagree | Routinet/e_learning/models.py:169-171 | `SoumissionEnRetard` (filed strictly after the deadline) is false for a submission filed at the deadline while `DevoirEnRetard` becomes true one tick later |
| Ordering.KeyLeTotalPreorder | Routinet/e_learning/models.py:86 | the (ordre, created_at) order is reflexive, total and transitive, and ties only between equal keys |
| Ordering.SortBy | Routinet/e_learning/models.py:86 | the result is sorted by key and is a permutation of the input |
| Ordering.OrderModules | Routinet/e_learning/models.py:86 | the given modules come back sorted by (ordre, created_at), each one exactly once |
| Ordering.OrderRessources | Routinet/e_learning/models.py:115 | the given resources come back sorted by (ordre, created_at), each one exactly once |
| Cascade.DeleteDevoir | Routinet/e_learning/models.py:151 | the assignment and exactly its submissions go; every other row stays unchanged |
| Cascade.DeleteModule | Routinet/e_learning/models.py:103-126 | the module, its resources, the assignments attached to it and their submissions go; every other row stays unchanged |
| Cascade.DeleteCours | Routinet/e_learning/models.py:59-77 | the course, its modules and their resources, its and its modules' assignments with their submissions, its enrollments and its events go; every other row stays unchanged |
| Cascade.DeleteCoursValid | Routinet/e_learning/models.py:125-126 | deleting a course keeps every foreign key and uniqueness constraint |
| Cascade.DeleteCoursLeavesNoTrace | Routinet/e_learning/models.py:233 | no remaining module, assignment, enrollment or event names the deleted course; other courses' enrollments stay as they were |
| Permissions.DraftVisibility | Routinet/e_learning/views.py:115-126 | `PeutVoirContenu` (teacher, active student, or published course) reduces for an unpublished course to exactly its teacher and its actively enrolled students, so an administrator who may delete a draft cannot see it |
| LearningForms.CleanRessource | Routinet/e_learning/forms.py:97-109 | a video or link without URL and a PDF or image with neither file nor URL are refused; the form passes, unchanged, exactly when the type's presence rule holds |
| LearningForms.CleanRessourceDependsOnPresence | Routinet/e_learning/forms.py:98-107 | the outcome depends only on the type and on whether a URL and a file are present |
| LearningForms.CleanRessourceExamples | Routinet/e_learning/forms.py:103-107 | a PDF with only a URL and a video with a URL and no file pass; an image with neither is refused |
| LearningForms.CleanDevoir | Routinet/e_learning/models.py:126-131 | passes, unchanged, exactly when the chosen module exists (any course's) and the maximum mark fits 5 digits with 2 decimals |
| LearningForms.ApplySoumissionForm | Routinet/e_learning/forms.py:191 | a submission save writes the file and the comment and nothing else |
| LearningForms.CleanNotation | Routinet/e_learning/models.py:156 | a mark passes exactly when it is absent or fits 5 digits with 2 decimals |
| LearningForms.ApplyNotation | Routinet/e_learning/forms.py:211 | grading writes the mark and the teacher comment only; the filing and grading dates stay |
| LearningForms.NotationUnbounded | Routinet/e_learning/forms.py:213-217 | a negative mark and a mark above the maximum both pass |
| LearningForms.SubmitAndGradeCommute | Routinet/e_learning/forms.py:185-211 | the submission and grading forms write disjoint fields, so their saves commute |
| Views.CoursCreate | Routinet/e_learning/views.py:144-163 | a non-teacher is refused with the store unchanged; an absent form re-shows it; a form adds one course owned by the user, holding the form's fields and created now, and changes nothing else |
| Views.CoursUpdate | Routinet/e_learning/views.py:167-185 | a missing course is not found; anyone but its teacher is refused with nothing changed; a valid form rewrites the form's fields only, keeping teacher and creation time |
| Views.CoursDelete | Routinet/e_learning/views.py:189-203 | only the teacher or an administrator passes; a confirmed request is exactly the cascading course delete, which removes the course and every enrollment in it; otherwise nothing changes |
| Views.ModuleCreate | Routinet/e_learning/views.py:340-360 | only the course's teacher passes; an absent form re-shows it unchanged; a form adds one module to that course holding the form's title, description and order, created now, and changes nothing else |
| Views.AddDevoir | Routinet/e_learning/views.py:374-378 | a checked assignment form adds one assignment to the given course holding every form field, created now; nothing else changes |
| Views.DevoirCreate | Routinet/e_learning/views.py:364-383 | a missing course is not found and anyone but its teacher is refused; for the teacher an absent or failing form re-shows the form unchanged and a passing form is exactly the assignment insert for that course |
| Views.DevoirCreateGlobal | Routinet/e_learning/views.py:387-408 | only teachers pass; a passing form naming a course the teacher owns is exactly the assignment insert for that course, and nothing is added to any other course |
| Views.EvenementCreate | Routinet/e_learning/views.py:217-229 | only administrators pass; a form naming an existing course adds one event holding every field of the form and changes nothing else |
| Views.EvenementUpdate | Routinet/e_learning/views.py:232-245 | only administrators pass, checked before the lookup; for an existing event a form naming an existing course saves it with every field from the form and leaves every other event and table as it was; an absent form or unknown course re-shows the form unchanged |
| Views.EvenementDelete | Routinet/e_learning/views.py:248-258 | only administrators pass, checked before the lookup; for an existing event a confirmed request removes exactly that event, every other event and table unchanged, and an unconfirmed one shows the confirmation page unchanged |
| Views.ForeignCourseProtected | Routinet/e_learning/views.py:167-383 | whatever the form and time, a teacher can neither edit, delete, nor add a module or an assignment to another teacher's course, and nothing changes |
| Views.AdminDeletesAnyCourse | Routinet/e_learning/views.py:195-198 | an administrator's confirmed delete removes any course |
| Enrollment.StatusOf | Routinet/e_learning/models.py:59-66 | a pair has a status exactly when it has a row, and the status is that row's |
| Enrollment.StatusActiveIff | Routinet/e_learning/views.py:118-123 | a pair's status is active exactly when an active row exists for it |
| Enrollment.Reactivate | Routinet/e_learning/views.py:281-284 | reactivating sets the pair's existing row to active and changes nothing else in the table, so the row keeps its id and enrollment date; no notification is sent, and the pair still has exactly one row |
| Enrollment.FirstEnrollment | Routinet/e_learning/views.py:285-296 | a first enrollment adds exactly one active row at a fresh id, every existing row unchanged, and exactly one enrollment notification for the teacher |
| Enrollment.InscriptionCours | Routinet/e_learning/views.py:262-298 | a non-student is refused and a missing or unpublished course is not found, both with nothing changed; otherwise the pair ends up with one active row: unchanged if it was active, the existing row set active with every other row as it was, or a new row at a fresh id with the teacher notified |
| Enrollment.DesinscriptionCours | Routinet/e_learning/views.py:302-315 | without a row it is not found; an unconfirmed request changes nothing; a confirmed request sets the pair's row to cancelled, whatever its status was, and changes no other row and no other field |
| Enrollment.EnrollTwice | Routinet/e_learning/views.py:279-280 | enrolling again after enrolling changes nothing |
| Enrollment.WithdrawThenEnroll | Routinet/e_learning/views.py:281-284 | withdrawing then enrolling answers "re-enrolled", leaves the pair active and sends no second notification |
| Enrollment.WithdrawThenEnrollSameRow | Routinet/e_learning/views.py:281-315 | the row left after withdrawing then enrolling is the pair's original row, with its id and enrollment date, made active, and every other row is as it was |
| Enrollment.EnrollCounts | Routinet/e_learning/models.py:38-40 | enrolling a student who is not active raises the course's count by one and leaves other courses' counts alone |
| Enrollment.WithdrawCounts | Routinet/e_learning/models.py:38-40 | withdrawing an active student lowers the count by one |
| Enrollment.EnrolledSeesContent | Routinet/e_learning/views.py:118-126 | after enrolling, the student is actively enrolled and may see the content |
| Submission.NewSoumission | Routinet/e_learning/models.py:151-158 | a new submission carries the form's file and comment, is filed now and is not graded |
| Submission.Resubmit | Routinet/e_learning/views.py:423-431 | saving over the existing submission keeps it the pair's only one and changes only its file and comment |
| Submission.FirstSubmission | Routinet/e_learning/views.py:423-431 | a first submission becomes the pair's only one, at a fresh id |
| Submission.SaveSubmission | Routinet/e_learning/views.py:423-431 | saving a valid form leaves exactly one submission for the pair and changes no other; an existing one becomes exactly the form applied to it (file and comment only), otherwise a new ungraded one filed now is added at the next id |
| Submission.DevoirSubmit | Routinet/e_learning/views.py:412-442 | a missing assignment is not found and, without an active enrollment, the answer is a refusal, both with nothing changed; a valid form leaves exactly one submission for the pair, which is the form applied to the existing one or a new one filed now, and no other submission changes |
| Submission.DevoirSubmitSaves | Routinet/e_learning/views.py:423-431 | the saved submission holds the form's file and comment; an existing one keeps its filing date, mark, grading date and teacher comment, a new one is filed now, ungraded and without teacher comment |
| Submission.ResubmitKeepsOne | Routinet/e_learning/views.py:419-431 | submitting twice leaves one submission with the second content and the first filing date |
| Submission.LatenessFixedAtFirstFiling | Routinet/e_learning/models.py:155 | a resubmission does not change whether the submission is late |

## Left out

- Rendering, templates, flash messages, redirects and routing. A refusal by
  redirect and a 403 answer are both `Forbidden`. A re-rendered form is
  `FormShown`.
- The framework's own field validation: required fields, maximum lengths,
  e-mail and URL syntax, and choice fields. A form that fails it is an
  absent form. Some of these checks are modelled explicitly, because a
  view's outcome depends on them: the assignment form's module choice and
  the 5-digit, 2-decimal width of its maximum mark (`LearningForms.CleanDevoir`),
  the same width for a mark (`LearningForms.CleanNotation`), the course
  choice of the global assignment form (`Views.DevoirCreateGlobal`), and
  the course choice of the event form (`Views.EvenementCreate`,
  `Views.EvenementUpdate`).
- File and image storage. A file is the stored name as a string, and the
  empty string means no file. For a resubmission without a new upload, the
  form data holds the file that was kept. Course images, profile photos and
  assignment attachments are not modelled.
- Passwords and the user-creation form's internals, such as username
  uniqueness and password matching. So are login and logout.
- The sign-up save with `commit=False`: the view always commits.
- The title, text and link of notifications. A notification keeps its
  recipient, type and read flag. The table has no course column: the
  model's `cours` field stands for the course its link points to
  (`/cours/<pk>/`).
- The messaging, notification list, contact, offers and listing views
  (`index`, `cours_list`, `mes_cours`, `mes_devoirs`). They are queries and
  mark-as-read side effects, with no rule beyond the ones modelled.
- User deletion and its cascade.
- CSV import, the admin back-office, the translation middleware, the
  template tag and client-side scripts.
- Non-ASCII whitespace and case folding in name normalization. Only the
  ASCII characters `str.isspace()` accepts (space, TAB through CR, and
  FS, GS, RS, US) and the ASCII letters are modelled.
- The ordering of rows by the database when keys tie, and the default
  ordering of the other tables.

=== FILE: accounts.dfy ===
/** Accounts: users, their one-to-one profile with a role, the sign-up form's
    role/code gate and the profile update form. */
module Accounts {
  import opened Base
  import opened Text

  type UserId = nat

  /** The closed set of profile roles. */
  datatype Role = Etudiant | Enseignant | Admin

  /** The value stored in the `role` column for each role. */
  function RoleCode(r: Role): string {
    match r
    case Etudiant => "etudiant"
    case Enseignant => "enseignant"
    case Admin => "admin"
  }

  /** The choice check on a submitted role: only the three stored codes name a role. */
  function ParseRole(s: string): (r: Option<Role>)
    ensures r.Some? ==> RoleCode(r.value) == s
    ensures forall role: Role :: RoleCode(role) == s ==> r == Some(role)
  {
    if s == "etudiant" then Some(Etudiant)
    else if s == "enseignant" then Some(Enseignant)
    else if s == "admin" then Some(Admin)
    else None
  }

  /** The role a profile gets when it is created. */
  const DefaultRole: Role := Etudiant

  /** The identity fields of a user account. The password is not modelled. */
  datatype User = User(username: string, firstName: string, lastName: string, email: string)

  /** The profile attached to every user. The photo is not modelled. */
  datatype Profile = Profile(role: Role, telephone: string, dateNaissance: Option<int>, biographie: string)

  predicate IsEtudiant(p: Profile) { p.role == Etudiant }

  predicate IsEnseignant(p: Profile) { p.role == Enseignant }

  predicate IsAdmin(p: Profile) { p.role == Admin }

  /** Every profile answers yes to exactly one of the three role checks. */
  lemma ExactlyOneRole(p: Profile)
    ensures IsEtudiant(p) || IsEnseignant(p) || IsAdmin(p)
    ensures !(IsEtudiant(p) && IsEnseignant(p))
    ensures !(IsEtudiant(p) && IsAdmin(p))
    ensures !(IsEnseignant(p) && IsAdmin(p))
  {
  }

  /** The profile a new user receives: default role, every other field blank. */
  function NewProfile(): (p: Profile)
    ensures IsEtudiant(p) && !IsEnseignant(p) && !IsAdmin(p)
    ensures p.telephone == "" && p.biographie == "" && p.dateNaissance == None
  {
    Profile(DefaultRole, "", None, "")
  }

  /** The framework's full name of a user: first and last name joined by a
      space, surrounding whitespace removed. */
  function FullName(u: User): (r: string)
    ensures r == [] || (!IsSpace(r[0]) && !IsSpace(r[|r| - 1]))
    ensures exists i, j :: OnlySpaceOutside(u.firstName + " " + u.lastName, i, j) && r == (u.firstName + " " + u.lastName)[i..j]
  {
    Strip(u.firstName + " " + u.lastName)
  }

  /** Trimmed, non-empty names are joined by exactly one space. */
  lemma FullNameOfTrimmedNames(u: User)
    requires u.firstName != [] && !IsSpace(u.firstName[0]) && !IsSpace(u.firstName[|u.firstName| - 1])
    requires u.lastName != [] && !IsSpace(u.lastName[0]) && !IsSpace(u.lastName[|u.lastName| - 1])
    ensures FullName(u) == u.firstName + " " + u.lastName
    ensures DisplayName(u) == u.firstName + " " + u.lastName
  {
    var s := u.firstName + " " + u.lastName;
    assert s[0] == u.firstName[0] && s[|s| - 1] == u.lastName[|u.lastName| - 1];
  }

  /** A user whose names are blank is shown by username. */
  lemma BlankNamesShowUsername(u: User)
    requires forall i :: 0 <= i < |u.firstName| ==> IsSpace(u.firstName[i])
    requires forall i :: 0 <= i < |u.lastName| ==> IsSpace(u.lastName[i])
    ensures FullName(u) == []
    ensures DisplayName(u) == u.username
  {
    var s := u.firstName + " " + u.lastName;
    assert forall m :: 0 <= m < |s| ==> IsSpace(s[m]) by {
      forall m | 0 <= m < |s| ensures IsSpace(s[m]) {
        if m < |u.firstName| { assert s[m] == u.firstName[m]; }
        else if m > |u.firstName| { assert s[m] == u.lastName[m - |u.firstName| - 1]; }
      }
    }
    StripOfBlank(s);
  }

  /** The name shown for a user: the full name, or the username when the
      full name is empty. */
  function DisplayName(u: User): (r: string)
    ensures FullName(u) != "" ==> r == FullName(u) && !IsSpace(r[0]) && !IsSpace(r[|r| - 1])
    ensures FullName(u) == "" ==> r == u.username
    ensures u.firstName == "" && u.lastName == "" ==> r == u.username
  {
    if FullName(u) != "" then FullName(u) else u.username
  }

  /** The users and their profiles. Profiles are keyed by their user, so a
      user has at most one profile; `DirValid` makes it exactly one. */
  datatype Directory = Directory(users: map<UserId, User>, profiles: map<UserId, Profile>, nextUser: nat)

  ghost predicate DirValid(d: Directory) {
    && d.profiles.Keys == d.users.Keys
    && forall u :: u in d.users ==> u < d.nextUser
  }

  /** The role of a signed-in user. */
  function RoleOf(d: Directory, u: UserId): Role
    requires DirValid(d) && u in d.users
  {
    d.profiles[u].role
  }

  datatype Created = Created(dir: Directory, id: UserId)

  /** Saving a new user together with the profile the post-save hook creates for it. */
  function CreateUser(d: Directory, u: User): (r: Created)
    requires DirValid(d)
    ensures DirValid(r.dir)
    ensures r.id !in d.users
    ensures r.dir.users == d.users[r.id := u]
    ensures r.dir.profiles.Keys == d.profiles.Keys + {r.id}
    ensures r.dir.profiles[r.id] == NewProfile()
    ensures forall v :: v in d.profiles ==> r.dir.profiles[v] == d.profiles[v]
  {
    var id := d.nextUser;
    Created(Directory(d.users[id := u], d.profiles[id := NewProfile()], id + 1), id)
  }

  /** The fields of the sign-up form this model uses, as the form's cleaning
      leaves them: text fields already have their surrounding whitespace
      stripped. Password fields are not modelled. */
  datatype SignupForm = SignupForm(username: string, email: string, firstName: string, lastName: string,
                                   role: string, code: string)

  /** The two access codes from the site settings. */
  datatype Settings = Settings(teacherCode: string, adminCode: string)

  datatype SignupError = RoleInvalid | TeacherCodeWrong | AdminCodeWrong

  /** The sign-up form's role/code gate: a student needs no code, a teacher
      must give the teacher code and an administrator the administrator code. */
  function CleanSignup(f: SignupForm, s: Settings): (r: Result<Role, SignupError>)
    ensures ParseRole(f.role) == None ==> r == Err(RoleInvalid)
    ensures ParseRole(f.role) == Some(Etudiant) ==> r == Ok(Etudiant)
    ensures ParseRole(f.role) == Some(Enseignant) ==> (r.Ok? <==> f.code == s.teacherCode)
    ensures ParseRole(f.role) == Some(Admin) ==> (r.Ok? <==> f.code == s.adminCode)
    ensures r.Ok? ==> ParseRole(f.role) == Some(r.value)
  {
    match ParseRole(f.role)
    case None => Err(RoleInvalid)
    case Some(role) =>
      if role == Enseignant && f.code != s.teacherCode then Err(TeacherCodeWrong)
      else if role == Admin && f.code != s.adminCode then Err(AdminCodeWrong)
      else Ok(role)
  }

  /** The student outcome of the gate does not look at the code. */
  lemma StudentCodeIgnored(f: SignupForm, code: string, s: Settings)
    requires ParseRole(f.role) == Some(Etudiant)
    ensures CleanSignup(f, s) == CleanSignup(f.(code := code), s) == Ok(Etudiant)
  {
  }

  /** Sign-up: the gate, then a committed save that creates the user with the
      form's email and names and sets the profile's role to the validated one. */
  function SignUp(d: Directory, f: SignupForm, s: Settings): (r: Result<Created, SignupError>)
    requires DirValid(d)
    ensures r.Err? <==> CleanSignup(f, s).Err?
    ensures r.Ok? ==>
      && DirValid(r.value.dir)
      && r.value.id !in d.users
      && r.value.dir.users == d.users[r.value.id := User(f.username, f.firstName, f.lastName, f.email)]
      && r.value.dir.profiles.Keys == d.profiles.Keys + {r.value.id}
      && Some(r.value.dir.profiles[r.value.id].role) == ParseRole(f.role)
      && r.value.dir.profiles[r.value.id] == NewProfile().(role := r.value.dir.profiles[r.value.id].role)
      && (forall v :: v in d.profiles ==> r.value.dir.profiles[v] == d.profiles[v])
  {
    match CleanSignup(f, s)
    case Err(e) => Err(e)
    case Ok(role) =>
      var c := CreateUser(d, User(f.username, f.firstName, f.lastName, f.email));
      var p := c.dir.profiles[c.id];
      Ok(Created(c.dir.(profiles := c.dir.profiles[c.id := p.(role := role)]), c.id))
  }

  /** The fields of the profile update form. The photo is not modelled. */
  datatype ProfileForm = ProfileForm(firstName: string, lastName: string, email: string,
                                     telephone: string, dateNaissance: Option<int>, biographie: string)

  /** A committed profile update: the names and email go onto the linked
      user, the other fields onto the profile; the role and username stay. */
  function UpdateProfile(d: Directory, u: UserId, f: ProfileForm): (r: Directory)
    requires DirValid(d) && u in d.users
    ensures DirValid(r)
    ensures r.users.Keys == d.users.Keys && r.nextUser == d.nextUser
    ensures r.users[u].firstName == f.firstName && r.users[u].lastName == f.lastName
    ensures r.users[u].email == f.email && r.users[u].username == d.users[u].username
    ensures r.profiles[u].role == d.profiles[u].role
    ensures r.profiles[u].telephone == f.telephone && r.profiles[u].biographie == f.biographie
    ensures r.profiles[u].dateNaissance == f.dateNaissance
    ensures forall v :: v in d.users && v != u ==> r.users[v] == d.users[v] && r.profiles[v] == d.profiles[v]
  {
    var user := d.users[u].(firstName := f.firstName, lastName := f.lastName, email := f.email);
    var p := d.profiles[u].(telephone := f.telephone, dateNaissance := f.dateNaissance, biographie := f.biographie);
    d.(users := d.users[u := user], profiles := d.profiles[u := p])
  }
}

=== FILE: base.dfy ===
/** Optional values and results with an error, the shapes the views and
    forms use for "absent" and "rejected". */
module Base {

  datatype Option<+T> = None | Some(value: T)

  datatype Result<+T, +E> = Ok(value: T) | Err(error: E)
}

=== FILE: cascade.dfy ===
/** Cascading deletion along the foreign keys: a course takes its modules,
    assignments, enrollments and events with it; a module takes its resources
    and the assignments attached to it; an assignment takes its submissions. */
module Cascade {
  import opened Base
  import opened Learning

  /** `b` keeps some of the rows of `a`, each one unchanged. */
  ghost predicate KeepsRows<V>(a: map<Id, V>, b: map<Id, V>) {
    b.Keys <= a.Keys && forall k :: k in b ==> b[k] == a[k]
  }

  /** A store whose tables keep some rows of a valid store, unchanged, is
      valid as soon as every kept row still finds the rows it points to. */
  lemma RestrictValid(st: State, r: State)
    requires Valid(st)
    requires r.dir == st.dir && r.notifications == st.notifications && r.nextId == st.nextId
    requires KeepsRows(st.courses, r.courses) && KeepsRows(st.modules, r.modules)
    requires KeepsRows(st.ressources, r.ressources) && KeepsRows(st.devoirs, r.devoirs)
    requires KeepsRows(st.soumissions, r.soumissions) && KeepsRows(st.inscriptions, r.inscriptions)
    requires KeepsRows(st.evenements, r.evenements)
    requires ModuleRefs(r.modules, r.courses) && RessourceRefs(r.ressources, r.modules)
    requires DevoirRefs(r.devoirs, r.courses, r.modules) && SoumissionRefs(r.soumissions, r.devoirs, r.dir.users)
    requires InscriptionRefs(r.inscriptions, r.dir.users, r.courses) && EvenementRefs(r.evenements, r.courses)
  {
  }

  /** Whether an assignment hangs off module `m`. */
  predicate AttachedTo(d: Devoir, m: Id) {
    d.moduleId == Some(m)
  }

  /** Deleting an assignment removes its submissions and nothing else. */
  function DeleteDevoir(st: State, d: Id): (r: State)
    ensures r.dir == st.dir && r.notifications == st.notifications && r.nextId == st.nextId
    ensures r.courses == st.courses && r.modules == st.modules && r.ressources == st.ressources
    ensures r.inscriptions == st.inscriptions && r.evenements == st.evenements
    ensures KeepsRows(st.devoirs, r.devoirs) && r.devoirs.Keys == st.devoirs.Keys - {d}
    ensures KeepsRows(st.soumissions, r.soumissions)
    ensures forall k :: k in st.soumissions ==> (k in r.soumissions <==> st.soumissions[k].devoir != d)
  {
    var r := st.(devoirs := map k | k in st.devoirs && k != d :: st.devoirs[k],
                 soumissions := map k | k in st.soumissions && st.soumissions[k].devoir != d :: st.soumissions[k]);
    r
  }

  /** Deleting a module removes its resources, the assignments attached to it
      and their submissions. */
  function DeleteModule(st: State, m: Id): (r: State)
    ensures r.dir == st.dir && r.notifications == st.notifications && r.nextId == st.nextId
    ensures r.courses == st.courses && r.inscriptions == st.inscriptions && r.evenements == st.evenements
    ensures KeepsRows(st.modules, r.modules) && r.modules.Keys == st.modules.Keys - {m}
    ensures KeepsRows(st.ressources, r.ressources)
    ensures forall k :: k in st.ressources ==> (k in r.ressources <==> st.ressources[k].moduleId != m)
    ensures KeepsRows(st.devoirs, r.devoirs)
    ensures forall k :: k in st.devoirs ==> (k in r.devoirs <==> !AttachedTo(st.devoirs[k], m))
    ensures KeepsRows(st.soumissions, r.soumissions)
    ensures forall k :: k in st.soumissions ==> (k in r.soumissions <==> st.soumissions[k].devoir in r.devoirs)
  {
    var devoirs := map k | k in st.devoirs && !AttachedTo(st.devoirs[k], m) :: st.devoirs[k];
    var r := st.(modules := map k | k in st.modules && k != m :: st.modules[k],
        ressources := map k | k in st.ressources && st.ressources[k].moduleId != m :: st.ressources[k],
        devoirs := devoirs,
        soumissions := map k | k in st.soumissions && st.soumissions[k].devoir in devoirs :: st.soumissions[k]);
    r
  }

  /** Whether an assignment is removed with course `c`: it belongs to `c`
      or is attached to one of `c`'s modules. */
  predicate FallsWithCours(st: State, d: Devoir, c: Id) {
    d.cours == c || (d.moduleId.Some? && d.moduleId.value in st.modules && st.modules[d.moduleId.value].cours == c)
  }

  /** Deleting a course removes its modules and their resources, every
      assignment of the course or of its modules with their submissions, the
      course's enrollments and its events. Every other row stays as it was. */
  function DeleteCours(st: State, c: Id): (r: State)
    ensures r.dir == st.dir && r.notifications == st.notifications && r.nextId == st.nextId
    ensures KeepsRows(st.courses, r.courses) && r.courses.Keys == st.courses.Keys - {c}
    ensures KeepsRows(st.modules, r.modules)
    ensures forall k :: k in st.modules ==> (k in r.modules <==> st.modules[k].cours != c)
    ensures KeepsRows(st.ressources, r.ressources)
    ensures forall k :: k in st.ressources ==> (k in r.ressources <==> st.ressources[k].moduleId in r.modules)
    ensures KeepsRows(st.devoirs, r.devoirs)
    ensures forall k :: k in st.devoirs ==> (k in r.devoirs <==> !FallsWithCours(st, st.devoirs[k], c))
    ensures KeepsRows(st.soumissions, r.soumissions)
    ensures forall k :: k in st.soumissions ==> (k in r.soumissions <==> st.soumissions[k].devoir in r.devoirs)
    ensures KeepsRows(st.inscriptions, r.inscriptions)
    ensures forall k :: k in st.inscriptions ==> (k in r.inscriptions <==> st.inscriptions[k].cours != c)
    ensures KeepsRows(st.evenements, r.evenements)
    ensures forall k :: k in st.evenements ==> (k in r.evenements <==> st.evenements[k].cours != c)
  {
    var modules := map k | k in st.modules && st.modules[k].cours != c :: st.modules[k];
    var devoirs := map k | k in st.devoirs && !FallsWithCours(st, st.devoirs[k], c) :: st.devoirs[k];
    var r := st.(courses := map k | k in st.courses && k != c :: st.courses[k],
        modules := modules,
        ressources := map k | k in st.ressources && st.ressources[k].moduleId in modules :: st.ressources[k],
        devoirs := devoirs,
        soumissions := map k | k in st.soumissions && st.soumissions[k].devoir in devoirs :: st.soumissions[k],
        inscriptions := map k | k in st.inscriptions && st.inscriptions[k].cours != c :: st.inscriptions[k],
        evenements := map k | k in st.evenements && st.evenements[k].cours != c :: st.evenements[k]);
    r
  }

  /** The cascades keep the store invariant. */
  lemma DeleteDevoirRefs(st: State, d: Id)
    requires Valid(st)
    ensures DevoirRefs(DeleteDevoir(st, d).devoirs, st.courses, st.modules)
    ensures SoumissionRefs(DeleteDevoir(st, d).soumissions, DeleteDevoir(st, d).devoirs, st.dir.users)
  {
  }

  lemma DeleteDevoirValid(st: State, d: Id)
    requires Valid(st) && d in st.devoirs
    ensures Valid(DeleteDevoir(st, d))
  {
    DeleteDevoirRefs(st, d);
    RestrictValid(st, DeleteDevoir(st, d));
  }

  lemma DeleteModuleContentRefs(st: State, m: Id)
    requires Valid(st)
    ensures RessourceRefs(DeleteModule(st, m).ressources, DeleteModule(st, m).modules)
    ensures DevoirRefs(DeleteModule(st, m).devoirs, st.courses, DeleteModule(st, m).modules)
  {
  }

  lemma DeleteModuleValid(st: State, m: Id)
    requires Valid(st) && m in st.modules
    ensures Valid(DeleteModule(st, m))
  {
    DeleteModuleContentRefs(st, m);
    RestrictValid(st, DeleteModule(st, m));
  }

  lemma DeleteCoursContentRefs(st: State, c: Id)
    requires Valid(st)
    ensures ModuleRefs(DeleteCours(st, c).modules, DeleteCours(st, c).courses)
    ensures RessourceRefs(DeleteCours(st, c).ressources, DeleteCours(st, c).modules)
    ensures DevoirRefs(DeleteCours(st, c).devoirs, DeleteCours(st, c).courses, DeleteCours(st, c).modules)
  {
  }

  lemma DeleteCoursPeopleRefs(st: State, c: Id)
    requires Valid(st)
    ensures SoumissionRefs(DeleteCours(st, c).soumissions, DeleteCours(st, c).devoirs, st.dir.users)
    ensures InscriptionRefs(DeleteCours(st, c).inscriptions, st.dir.users, DeleteCours(st, c).courses)
    ensures EvenementRefs(DeleteCours(st, c).evenements, DeleteCours(st, c).courses)
  {
  }

  lemma DeleteCoursValid(st: State, c: Id)
    requires Valid(st) && c in st.courses
    ensures Valid(DeleteCours(st, c))
  {
    DeleteCoursContentRefs(st, c);
    DeleteCoursPeopleRefs(st, c);
    RestrictValid(st, DeleteCours(st, c));
  }

  /** After a course is deleted no remaining row mentions it, and every
      enrollment row of another course is still there. */
  lemma DeleteCoursLeavesNoTrace(st: State, c: Id, k: Id)
    requires Valid(st) && c in st.courses
    ensures k in DeleteCours(st, c).modules ==> DeleteCours(st, c).modules[k].cours != c
    ensures k in DeleteCours(st, c).devoirs ==> DeleteCours(st, c).devoirs[k].cours != c
    ensures k in DeleteCours(st, c).inscriptions ==> DeleteCours(st, c).inscriptions[k].cours != c
    ensures k in DeleteCours(st, c).evenements ==> DeleteCours(st, c).evenements[k].cours != c
    ensures k in st.inscriptions && st.inscriptions[k].cours != c ==>
              k in DeleteCours(st, c).inscriptions && DeleteCours(st, c).inscriptions[k] == st.inscriptions[k]
  {
  }
}

=== FILE: enrollment.dfy ===
/** The enrollment ledger: enrolling in a published course and withdrawing
    from it. Seen through `StatusOf`, the ledger is a partial map from
    (student, course) pairs to enrollment statuses. */
module Enrollment {
  import opened Base
  import opened Accounts
  import opened Learning
  import opened Permissions
  import opened Views

  /** The status of the pair's row, if the pair has one. */
  function StatusOf(st: State, e: UserId, c: Id): (r: Option<InscriptionStatut>)
    requires UniqueInscriptions(st.inscriptions)
    ensures r.None? <==> RowsFor(st.inscriptions, e, c) == {}
    ensures forall k :: k in RowsFor(st.inscriptions, e, c) ==> r == Some(st.inscriptions[k].statut)
  {
    match FindInscription(st, e, c)
    case None => None
    case Some(k) => Some(st.inscriptions[k].statut)
  }

  /** An active row is exactly what the visibility rule and the submission
      gate look for. */
  lemma StatusActiveIff(st: State, e: UserId, c: Id)
    requires UniqueInscriptions(st.inscriptions)
    ensures StatusOf(st, e, c) == Some(Active) <==> ActivelyEnrolled(st, e, c)
  {
    if ActivelyEnrolled(st, e, c) {
      var k :| k in st.inscriptions && st.inscriptions[k].etudiant == e && st.inscriptions[k].cours == c
               && st.inscriptions[k].statut == Active;
      assert k in RowsFor(st.inscriptions, e, c);
    }
    if StatusOf(st, e, c) == Some(Active) {
      var k := FindInscription(st, e, c).value;
      assert k in RowsFor(st.inscriptions, e, c);
    }
  }

  /** The store with row `k`'s status set to `s`. */
  function SetStatut(st: State, k: Id, s: InscriptionStatut): (r: State)
    requires k in st.inscriptions
    ensures r.inscriptions.Keys == st.inscriptions.Keys
    ensures r.inscriptions[k].statut == s
    ensures r.inscriptions[k].(statut := st.inscriptions[k].statut) == st.inscriptions[k]
    ensures forall j :: j in st.inscriptions && j != k ==> r.inscriptions[j] == st.inscriptions[j]
    ensures r.(inscriptions := st.inscriptions) == st
  {
    st.(inscriptions := st.inscriptions[k := st.inscriptions[k].(statut := s)])
  }

  /** Changing a status keeps the table unique. */
  lemma SetStatutUnique(m: map<Id, Inscription>, k: Id, s: InscriptionStatut)
    requires UniqueInscriptions(m) && k in m
    ensures UniqueInscriptions(m[k := m[k].(statut := s)])
  {
    var m2 := m[k := m[k].(statut := s)];
    assert forall a :: a in m2 ==> m2[a].etudiant == m[a].etudiant && m2[a].cours == m[a].cours;
  }

  lemma SetStatutValid(st: State, k: Id, s: InscriptionStatut)
    requires Valid(st) && k in st.inscriptions
    ensures Valid(SetStatut(st, k, s))
  {
    SetStatutUnique(st.inscriptions, k, s);
  }

  /** Changing a status moves no row from one pair to another. */
  lemma SetStatutRows(st: State, k: Id, s: InscriptionStatut, e: UserId, c: Id)
    requires k in st.inscriptions
    ensures RowsFor(SetStatut(st, k, s).inscriptions, e, c) == RowsFor(st.inscriptions, e, c)
  {
    var r := SetStatut(st, k, s);
    assert forall a :: a in r.inscriptions ==>
      r.inscriptions[a].etudiant == st.inscriptions[a].etudiant && r.inscriptions[a].cours == st.inscriptions[a].cours;
  }

  /** Changing one row's status leaves every other pair's status alone and
      gives the row's own pair the new status. */
  lemma SetStatutLedger(st: State, k: Id, s: InscriptionStatut, e: UserId, c: Id)
    requires Valid(st) && k in st.inscriptions
    ensures UniqueInscriptions(SetStatut(st, k, s).inscriptions)
    ensures RowsFor(SetStatut(st, k, s).inscriptions, e, c) == RowsFor(st.inscriptions, e, c)
    ensures StatusOf(SetStatut(st, k, s), e, c) ==
              if k in RowsFor(st.inscriptions, e, c) then Some(s) else StatusOf(st, e, c)
  {
    SetStatutValid(st, k, s);
    SetStatutRows(st, k, s, e, c);
    var r := SetStatut(st, k, s);
    if k in RowsFor(st.inscriptions, e, c) {
      assert k in RowsFor(r.inscriptions, e, c);
      assert r.inscriptions[k].statut == s;
    } else if StatusOf(st, e, c).Some? {
      var j := FindInscription(st, e, c).value;
      assert j in RowsFor(st.inscriptions, e, c);
      assert j != k && r.inscriptions[j] == st.inscriptions[j];
    }
  }

  lemma SetStatutLedgerAll(st: State, k: Id, s: InscriptionStatut)
    requires Valid(st) && k in st.inscriptions
    ensures UniqueInscriptions(SetStatut(st, k, s).inscriptions)
    ensures forall e2, c2 :: StatusOf(SetStatut(st, k, s), e2, c2) ==
              if k in RowsFor(st.inscriptions, e2, c2) then Some(s) else StatusOf(st, e2, c2)
  {
    SetStatutValid(st, k, s);
    forall e2, c2
      ensures StatusOf(SetStatut(st, k, s), e2, c2) ==
                if k in RowsFor(st.inscriptions, e2, c2) then Some(s) else StatusOf(st, e2, c2)
    {
      SetStatutLedger(st, k, s, e2, c2);
    }
  }

  /** The store after a first enrollment: the new row at the next id and the
      teacher's notification at the end of the list. */
  function AddInscription(st: State, e: UserId, c: Id, now: int): (r: State)
    requires c in st.courses
    ensures r.inscriptions == st.inscriptions[st.nextId := Inscription(e, c, DefaultInscriptionStatut, now)]
    ensures r.notifications == st.notifications + [Notification(st.courses[c].enseignant, NotifInscription, c, false)]
    ensures r.nextId == st.nextId + 1
    ensures r.(inscriptions := st.inscriptions, notifications := st.notifications, nextId := st.nextId) == st
  {
    st.(inscriptions := st.inscriptions[st.nextId := Inscription(e, c, DefaultInscriptionStatut, now)],
        notifications := st.notifications + [Notification(st.courses[c].enseignant, NotifInscription, c, false)],
        nextId := st.nextId + 1)
  }

  /** Adding a row at a fresh id adds it to its own pair's rows only. */
  lemma AddRowRows(m: map<Id, Inscription>, id: Id, i: Inscription, e2: UserId, c2: Id)
    requires id !in m
    ensures RowsFor(m[id := i], e2, c2) ==
              RowsFor(m, e2, c2) + (if i.etudiant == e2 && i.cours == c2 then {id} else {})
  {
  }

  /** A row for a pair that has none keeps the table unique. */
  lemma AddRowUnique(m: map<Id, Inscription>, id: Id, i: Inscription)
    requires UniqueInscriptions(m) && id !in m && RowsFor(m, i.etudiant, i.cours) == {}
    ensures UniqueInscriptions(m[id := i])
  {
    assert forall a :: a in m ==> (a in RowsFor(m, i.etudiant, i.cours) <==> m[a].etudiant == i.etudiant && m[a].cours == i.cours);
  }

  lemma AddInscriptionValid(st: State, e: UserId, c: Id, now: int)
    requires Valid(st) && e in st.dir.users && c in st.courses && RowsFor(st.inscriptions, e, c) == {}
    ensures Valid(AddInscription(st, e, c, now))
  {
    var r := AddInscription(st, e, c, now);
    assert r.dir == st.dir && r.courses == st.courses && r.modules == st.modules;
    assert r.ressources == st.ressources && r.devoirs == st.devoirs;
    assert r.soumissions == st.soumissions && r.evenements == st.evenements;
    assert st.nextId !in st.inscriptions;
    AddRowUnique(st.inscriptions, st.nextId, Inscription(e, c, DefaultInscriptionStatut, now));
    assert InscriptionRefs(r.inscriptions, r.dir.users, r.courses);
    assert forall k :: 0 <= k < |r.notifications| ==> r.notifications[k].utilisateur in r.dir.users;
  }

  /** The new pair's status after a first enrollment; every other pair keeps its own. */
  lemma AddInscriptionLedger(st: State, e: UserId, c: Id, now: int, e2: UserId, c2: Id)
    requires Valid(st) && e in st.dir.users && c in st.courses && RowsFor(st.inscriptions, e, c) == {}
    ensures UniqueInscriptions(AddInscription(st, e, c, now).inscriptions)
    ensures RowsFor(AddInscription(st, e, c, now).inscriptions, e, c) == {st.nextId}
    ensures StatusOf(AddInscription(st, e, c, now), e2, c2) ==
              if e2 == e && c2 == c then Some(Active) else StatusOf(st, e2, c2)
  {
    var i := Inscription(e, c, DefaultInscriptionStatut, now);
    assert st.nextId !in st.inscriptions;
    AddRowUnique(st.inscriptions, st.nextId, i);
    AddRowRows(st.inscriptions, st.nextId, i, e, c);
    AddRowRows(st.inscriptions, st.nextId, i, e2, c2);
    var r := AddInscription(st, e, c, now);
    assert r.inscriptions == st.inscriptions[st.nextId := i];
    if e2 == e && c2 == c {
      assert st.nextId in RowsFor(r.inscriptions, e, c);
    } else if StatusOf(st, e2, c2).Some? {
      var j := FindInscription(st, e2, c2).value;
      assert j in RowsFor(r.inscriptions, e2, c2);
      assert r.inscriptions[j] == st.inscriptions[j];
    }
  }

  lemma AddInscriptionLedgerAll(st: State, e: UserId, c: Id, now: int)
    requires Valid(st) && e in st.dir.users && c in st.courses && RowsFor(st.inscriptions, e, c) == {}
    ensures UniqueInscriptions(AddInscription(st, e, c, now).inscriptions)
    ensures forall e2, c2 :: StatusOf(AddInscription(st, e, c, now), e2, c2) ==
              if e2 == e && c2 == c then Some(Active) else StatusOf(st, e2, c2)
  {
    AddInscriptionValid(st, e, c, now);
    forall e2, c2
      ensures StatusOf(AddInscription(st, e, c, now), e2, c2) ==
                if e2 == e && c2 == c then Some(Active) else StatusOf(st, e2, c2)
    {
      AddInscriptionLedger(st, e, c, now, e2, c2);
    }
  }

  /** Re-enrolling over an existing row that is not active: the row becomes
      active, nobody is notified and no id is used. */
  function Reactivate(st: State, actor: UserId, c: Id, k: Id): (r: Step)
    requires Valid(st) && k in st.inscriptions && k in RowsFor(st.inscriptions, actor, c)
    ensures Valid(r.st) && r.reply == Reenrolled
    ensures StatusOf(r.st, actor, c) == Some(Active)
    ensures |RowsFor(r.st.inscriptions, actor, c)| == 1
    ensures forall e2, c2 :: !(e2 == actor && c2 == c) ==> StatusOf(r.st, e2, c2) == StatusOf(st, e2, c2)
    ensures r.st.inscriptions == st.inscriptions[k := st.inscriptions[k].(statut := Active)]
    ensures r.st.(inscriptions := st.inscriptions) == st
  {
    SetStatutValid(st, k, Active);
    SetStatutLedgerAll(st, k, Active);
    SetStatutLedger(st, k, Active, actor, c);
    assert RowsFor(st.inscriptions, actor, c) == {k};
    Step(SetStatut(st, k, Active), Reenrolled)
  }

  /** A first enrollment: a new active row at the next id and one
      notification for the course's teacher. */
  function FirstEnrollment(st: State, actor: UserId, c: Id, now: int): (r: Step)
    requires Valid(st) && actor in st.dir.users && c in st.courses && RowsFor(st.inscriptions, actor, c) == {}
    ensures Valid(r.st) && r.reply == Saved(st.nextId) && st.nextId !in st.inscriptions
    ensures StatusOf(r.st, actor, c) == Some(Active)
    ensures RowsFor(r.st.inscriptions, actor, c) == {st.nextId}
    ensures r.st.inscriptions == st.inscriptions[st.nextId := Inscription(actor, c, Active, now)]
    ensures forall e2, c2 :: !(e2 == actor && c2 == c) ==> StatusOf(r.st, e2, c2) == StatusOf(st, e2, c2)
    ensures r.st.notifications == st.notifications + [Notification(st.courses[c].enseignant, NotifInscription, c, false)]
    ensures r.st.(inscriptions := st.inscriptions, notifications := st.notifications, nextId := st.nextId) == st
  {
    AddInscriptionValid(st, actor, c, now);
    AddInscriptionLedgerAll(st, actor, c, now);
    AddInscriptionLedger(st, actor, c, now, actor, c);
    Step(AddInscription(st, actor, c, now), Saved(st.nextId))
  }

  /** Enrolling: students only, published courses only. A first enrollment
      creates an active row and notifies the teacher; an active row is left
      alone; any other row is made active again without a notification. */
  function InscriptionCours(st: State, actor: UserId, c: Id, now: int): (r: Step)
    requires Valid(st) && actor in st.dir.users
    ensures Valid(r.st)
    ensures !MayEnroll(RoleOf(st.dir, actor)) ==> r == Step(st, Forbidden)
    ensures MayEnroll(RoleOf(st.dir, actor)) && (c !in st.courses || st.courses[c].statut != Publie) ==>
              r == Step(st, NotFound)
    ensures MayEnroll(RoleOf(st.dir, actor)) && c in st.courses && st.courses[c].statut == Publie ==>
      && StatusOf(r.st, actor, c) == Some(Active)
      && |RowsFor(r.st.inscriptions, actor, c)| == 1
      && (forall e2, c2 :: !(e2 == actor && c2 == c) ==> StatusOf(r.st, e2, c2) == StatusOf(st, e2, c2))
      && (StatusOf(st, actor, c) == Some(Active) ==> r == Step(st, AlreadyEnrolled))
      && (StatusOf(st, actor, c).Some? && StatusOf(st, actor, c) != Some(Active) ==>
            && r.reply == Reenrolled && r.st.notifications == st.notifications && r.st.nextId == st.nextId
            && (forall k :: k in RowsFor(st.inscriptions, actor, c) ==>
                  r.st.inscriptions == st.inscriptions[k := st.inscriptions[k].(statut := Active)]))
      && (StatusOf(st, actor, c).None? ==>
            && r.reply == Saved(st.nextId) && st.nextId !in st.inscriptions
            && r.st.inscriptions == st.inscriptions[st.nextId := Inscription(actor, c, Active, now)]
            && r.st.notifications == st.notifications + [Notification(st.courses[c].enseignant, NotifInscription, c, false)])
    ensures r.st.(inscriptions := st.inscriptions, notifications := st.notifications, nextId := st.nextId) == st
  {
    if !IsEtudiant(st.dir.profiles[actor]) then Step(st, Forbidden)
    else if c !in st.courses || st.courses[c].statut != Publie then Step(st, NotFound)
    else
      match FindInscription(st, actor, c)
      case Some(k) =>
        assert k in RowsFor(st.inscriptions, actor, c);
        if st.inscriptions[k].statut == Active then Step(st, AlreadyEnrolled)
        else Reactivate(st, actor, c, k)
      case None => FirstEnrollment(st, actor, c, now)
  }

  /** Withdrawing: the pair's row must exist; a confirmed request marks it
      cancelled whatever its status was, and never deletes it. */
  function DesinscriptionCours(st: State, actor: UserId, c: Id, post: bool): (r: Step)
    requires Valid(st) && actor in st.dir.users
    ensures Valid(r.st)
    ensures c !in st.courses || StatusOf(st, actor, c).None? ==> r == Step(st, NotFound)
    ensures c in st.courses && StatusOf(st, actor, c).Some? && !post ==> r == Step(st, FormShown)
    ensures c in st.courses && StatusOf(st, actor, c).Some? && post ==>
      && r.reply == Withdrawn
      && StatusOf(r.st, actor, c) == Some(Annulee)
      && r.st.inscriptions.Keys == st.inscriptions.Keys
      && RowsFor(r.st.inscriptions, actor, c) == RowsFor(st.inscriptions, actor, c)
      && (forall e2, c2 :: !(e2 == actor && c2 == c) ==> StatusOf(r.st, e2, c2) == StatusOf(st, e2, c2))
      && (forall k :: k in RowsFor(st.inscriptions, actor, c) ==>
            r.st.inscriptions == st.inscriptions[k := st.inscriptions[k].(statut := Annulee)])
    ensures r.st.(inscriptions := st.inscriptions) == st
  {
    if c !in st.courses then Step(st, NotFound)
    else
      match FindInscription(st, actor, c)
      case None => Step(st, NotFound)
      case Some(k) =>
        if !post then Step(st, FormShown)
        else
          SetStatutValid(st, k, Annulee);
          assert k in RowsFor(st.inscriptions, actor, c);
          SetStatutLedgerAll(st, k, Annulee);
          SetStatutLedger(st, k, Annulee, actor, c);
          Step(SetStatut(st, k, Annulee), Withdrawn)
  }

  /** Enrolling a second time changes nothing. */
  lemma EnrollTwice(st: State, actor: UserId, c: Id, now: int, later: int)
    requires Valid(st) && actor in st.dir.users
    requires RoleOf(st.dir, actor) == Etudiant && c in st.courses && st.courses[c].statut == Publie
    ensures InscriptionCours(InscriptionCours(st, actor, c, now).st, actor, c, later)
            == Step(InscriptionCours(st, actor, c, now).st, AlreadyEnrolled)
  {
    var s1 := InscriptionCours(st, actor, c, now).st;
    assert s1.dir == st.dir && s1.courses == st.courses;
  }

  /** A second status change of the same row overrides the first. */
  lemma SetStatutTwice(m: map<Id, Inscription>, k: Id, a: InscriptionStatut, b: InscriptionStatut)
    requires k in m
    ensures m[k := m[k].(statut := a)][k := m[k].(statut := a).(statut := b)] == m[k := m[k].(statut := b)]
  {
  }

  /** Withdrawing and enrolling again reactivates the same row and sends no
      second notification. */
  lemma WithdrawThenEnroll(st: State, actor: UserId, c: Id, now: int)
    requires Valid(st) && actor in st.dir.users
    requires RoleOf(st.dir, actor) == Etudiant && c in st.courses && st.courses[c].statut == Publie
    requires StatusOf(st, actor, c).Some?
    ensures DesinscriptionCours(st, actor, c, true).reply == Withdrawn
    ensures InscriptionCours(DesinscriptionCours(st, actor, c, true).st, actor, c, now).reply == Reenrolled
    ensures InscriptionCours(DesinscriptionCours(st, actor, c, true).st, actor, c, now).st.notifications == st.notifications
    ensures StatusOf(InscriptionCours(DesinscriptionCours(st, actor, c, true).st, actor, c, now).st, actor, c) == Some(Active)
  {
    var s1 := DesinscriptionCours(st, actor, c, true).st;
    assert s1.dir == st.dir && s1.courses == st.courses && s1.notifications == st.notifications;
  }

  /** The row that withdrawing then enrolling leaves is the pair's original
      row, with its id and enrollment date, made active; no other row moves. */
  lemma WithdrawThenEnrollSameRow(st: State, actor: UserId, c: Id, now: int)
    requires Valid(st) && actor in st.dir.users
    requires RoleOf(st.dir, actor) == Etudiant && c in st.courses && st.courses[c].statut == Publie
    requires StatusOf(st, actor, c).Some?
    ensures forall k :: k in RowsFor(st.inscriptions, actor, c) ==>
              InscriptionCours(DesinscriptionCours(st, actor, c, true).st, actor, c, now).st.inscriptions
              == st.inscriptions[k := st.inscriptions[k].(statut := Active)]
  {
    var k := FindInscription(st, actor, c).value;
    assert k in RowsFor(st.inscriptions, actor, c);
    var s1 := DesinscriptionCours(st, actor, c, true).st;
    assert s1 == SetStatut(st, k, Annulee);
    assert s1.dir == st.dir && s1.courses == st.courses;
    assert k in RowsFor(s1.inscriptions, actor, c);
    var s2 := InscriptionCours(s1, actor, c, now).st;
    assert s2.inscriptions == s1.inscriptions[k := s1.inscriptions[k].(statut := Active)];
    assert s2.inscriptions == st.inscriptions[k := st.inscriptions[k].(statut := Active)] by {
      SetStatutTwice(st.inscriptions, k, Annulee, Active);
    }
    forall j | j in RowsFor(st.inscriptions, actor, c)
      ensures s2.inscriptions == st.inscriptions[j := st.inscriptions[j].(statut := Active)]
    {
      assert j == k;
    }
  }

  /** The rows of course `c` counted by the number of students. */
  function ActiveRows(st: State, c: Id): set<Id> {
    set k | k in st.inscriptions && st.inscriptions[k].cours == c && st.inscriptions[k].statut == Active
  }

  lemma NombreIsActiveRows(st: State, c: Id)
    ensures NombreEtudiants(st, c) == |ActiveRows(st, c)|
  {
  }

  /** Activating a row adds it to its course's count, cancelling it takes it
      off; no other course's count moves. */
  lemma ActiveRowsSetStatut(st: State, k: Id, s: InscriptionStatut, c: Id)
    requires k in st.inscriptions
    ensures st.inscriptions[k].cours == c && s == Active ==>
              ActiveRows(SetStatut(st, k, s), c) == ActiveRows(st, c) + {k}
    ensures st.inscriptions[k].cours == c && s != Active ==>
              ActiveRows(SetStatut(st, k, s), c) == ActiveRows(st, c) - {k}
    ensures st.inscriptions[k].cours != c ==> ActiveRows(SetStatut(st, k, s), c) == ActiveRows(st, c)
  {
  }

  lemma ActiveRowsAdd(st: State, e: UserId, c: Id, now: int, c2: Id)
    requires c in st.courses && st.nextId !in st.inscriptions
    ensures c2 == c ==> ActiveRows(AddInscription(st, e, c, now), c2) == ActiveRows(st, c2) + {st.nextId}
    ensures c2 != c ==> ActiveRows(AddInscription(st, e, c, now), c2) == ActiveRows(st, c2)
  {
  }

  /** Enrolling a student who is not actively enrolled adds one to the
      course's count; no other course's count moves. */
  lemma {:induction false} EnrollCounts(st: State, actor: UserId, c: Id, now: int, other: Id)
    requires Valid(st) && actor in st.dir.users
    requires RoleOf(st.dir, actor) == Etudiant && c in st.courses && st.courses[c].statut == Publie
    requires StatusOf(st, actor, c) != Some(Active) && other != c
    ensures NombreEtudiants(InscriptionCours(st, actor, c, now).st, c) == NombreEtudiants(st, c) + 1
    ensures NombreEtudiants(InscriptionCours(st, actor, c, now).st, other) == NombreEtudiants(st, other)
  {
    var r := InscriptionCours(st, actor, c, now).st;
    NombreIsActiveRows(st, c);
    NombreIsActiveRows(st, other);
    NombreIsActiveRows(r, c);
    NombreIsActiveRows(r, other);
    match FindInscription(st, actor, c)
    case None =>
      assert st.nextId !in st.inscriptions;
      assert st.nextId !in ActiveRows(st, c);
      assert r == AddInscription(st, actor, c, now);
      ActiveRowsAdd(st, actor, c, now, c);
      ActiveRowsAdd(st, actor, c, now, other);
    case Some(k) =>
      assert k in RowsFor(st.inscriptions, actor, c);
      assert k !in ActiveRows(st, c);
      assert r == SetStatut(st, k, Active);
      ActiveRowsSetStatut(st, k, Active, c);
      ActiveRowsSetStatut(st, k, Active, other);
  }

  /** Withdrawing from an active enrollment takes one student off the count. */
  lemma {:induction false} WithdrawCounts(st: State, actor: UserId, c: Id)
    requires Valid(st) && actor in st.dir.users && c in st.courses
    requires StatusOf(st, actor, c) == Some(Active)
    ensures NombreEtudiants(DesinscriptionCours(st, actor, c, true).st, c) == NombreEtudiants(st, c) - 1
  {
    var r := DesinscriptionCours(st, actor, c, true).st;
    var k := FindInscription(st, actor, c).value;
    assert k in RowsFor(st.inscriptions, actor, c);
    assert k in ActiveRows(st, c);
    assert r == SetStatut(st, k, Annulee);
    ActiveRowsSetStatut(st, k, Annulee, c);
    NombreIsActiveRows(st, c);
    NombreIsActiveRows(r, c);
  }

  /** Enrolling leaves the student actively enrolled, which on its own
      grants sight of the content. */
  lemma EnrolledSeesContent(st: State, actor: UserId, c: Id, now: int)
    requires Valid(st) && actor in st.dir.users
    requires RoleOf(st.dir, actor) == Etudiant && c in st.courses && st.courses[c].statut == Publie
    ensures c in InscriptionCours(st, actor, c, now).st.courses
    ensures PeutVoirContenu(InscriptionCours(st, actor, c, now).st, actor, Etudiant, c)
    ensures ActivelyEnrolled(InscriptionCours(st, actor, c, now).st, actor, c)
  {
    var r := InscriptionCours(st, actor, c, now).st;
    StatusActiveIff(r, actor, c);
  }
}

=== FILE: learning.dfy ===
/** The e-learning records: courses, modules, resources, assignments
    ("devoirs"), submissions, enrollments ("inscriptions"), events and
    notifications, held in id-keyed tables with the foreign-key and
    uniqueness constraints as the store invariant. Times are integer
    timestamps; decimal amounts are integer hundredths. */
module Learning {
  import opened Base
  import opened Accounts

  type Id = nat

  datatype CoursStatut = Brouillon | Publie | Archive

  datatype InscriptionStatut = Active | Terminee | EnAttente | Annulee

  /** An enrollment row starts out active. */
  const DefaultInscriptionStatut: InscriptionStatut := Active

  datatype RessourceType = Pdf | Video | Lien | Image

  datatype EvenementType = Examen | Seance | Conference | Autre

  datatype NotificationType = NotifCours | NotifDevoir | NotifMessage | NotifInscription | NotifNote

  function CoursStatutCode(s: CoursStatut): string {
    match s
    case Brouillon => "brouillon"
    case Publie => "publie"
    case Archive => "archive"
  }

  /** The choice check on a submitted course status. */
  function ParseCoursStatut(code: string): (r: Option<CoursStatut>)
    ensures r.Some? ==> CoursStatutCode(r.value) == code
    ensures forall s: CoursStatut :: CoursStatutCode(s) == code ==> r == Some(s)
  {
    if code == "brouillon" then Some(Brouillon)
    else if code == "publie" then Some(Publie)
    else if code == "archive" then Some(Archive)
    else None
  }

  function InscriptionStatutCode(s: InscriptionStatut): string {
    match s
    case Active => "active"
    case Terminee => "terminee"
    case EnAttente => "en_attente"
    case Annulee => "annulee"
  }

  /** The choice check on a stored enrollment status. */
  function ParseInscriptionStatut(code: string): (r: Option<InscriptionStatut>)
    ensures r.Some? ==> InscriptionStatutCode(r.value) == code
    ensures forall s: InscriptionStatut :: InscriptionStatutCode(s) == code ==> r == Some(s)
  {
    if code == "active" then Some(Active)
    else if code == "terminee" then Some(Terminee)
    else if code == "en_attente" then Some(EnAttente)
    else if code == "annulee" then Some(Annulee)
    else None
  }

  /** A decimal with 5 digits of which 2 are decimals, held as hundredths. */
  predicate FitsDecimal52(cents: int) {
    -100000 < cents < 100000
  }

  /** The display order of modules and resources: by `ordre`, then by creation time. */
  datatype OrderKey = OrderKey(ordre: int, createdAt: int)

  datatype Cours = Cours(titre: string, description: string, enseignant: UserId, statut: CoursStatut,
                         dateDebut: Option<int>, dateFin: Option<int>, createdAt: int)

  datatype Inscription = Inscription(etudiant: UserId, cours: Id, statut: InscriptionStatut, dateInscription: int)

  datatype Module = Module(cours: Id, titre: string, description: string, ordre: int, createdAt: int)

  /** A resource. An empty `url` or `fichier` stands for an absent one. */
  datatype Ressource = Ressource(moduleId: Id, nom: string, rtype: RessourceType, url: string, fichier: string,
                                 description: string, ordre: int, createdAt: int)

  datatype Devoir = Devoir(cours: Id, moduleId: Option<Id>, titre: string, description: string,
                           dateLimite: int, noteMax: int, createdAt: int)

  datatype Soumission = Soumission(devoir: Id, etudiant: UserId, fichier: string, commentaire: string,
                                   dateDepot: int, note: Option<int>, commentaireEnseignant: string,
                                   dateNotation: Option<int>)

  datatype Evenement = Evenement(cours: Id, titre: string, description: string, etype: EvenementType,
                                 dateDebut: int, dateFin: int, lieu: string)

  /** A notification; its title and text are presentation and are not modelled. */
  datatype Notification = Notification(utilisateur: UserId, ntype: NotificationType, cours: Id, lu: bool)

  /** The whole store. `nextId` is the next free row id of the e-learning tables. */
  datatype State = State(
    dir: Directory,
    courses: map<Id, Cours>,
    modules: map<Id, Module>,
    ressources: map<Id, Ressource>,
    devoirs: map<Id, Devoir>,
    soumissions: map<Id, Soumission>,
    inscriptions: map<Id, Inscription>,
    evenements: map<Id, Evenement>,
    notifications: seq<Notification>,
    nextId: nat)

  /** At most one enrollment row per (student, course). */
  ghost predicate UniqueInscriptions(m: map<Id, Inscription>) {
    forall a, b :: a in m && b in m && m[a].etudiant == m[b].etudiant && m[a].cours == m[b].cours ==> a == b
  }

  /** At most one submission per (assignment, student). */
  ghost predicate UniqueSoumissions(m: map<Id, Soumission>) {
    forall a, b :: a in m && b in m && m[a].devoir == m[b].devoir && m[a].etudiant == m[b].etudiant ==> a == b
  }

  /** The foreign keys of each table, stated on the tables they join. */
  ghost predicate CoursRefs(courses: map<Id, Cours>, users: map<UserId, User>) {
    forall c :: c in courses ==> courses[c].enseignant in users
  }

  ghost predicate ModuleRefs(modules: map<Id, Module>, courses: map<Id, Cours>) {
    forall m :: m in modules ==> modules[m].cours in courses
  }

  ghost predicate RessourceRefs(ressources: map<Id, Ressource>, modules: map<Id, Module>) {
    forall r :: r in ressources ==> ressources[r].moduleId in modules
  }

  ghost predicate DevoirRefs(devoirs: map<Id, Devoir>, courses: map<Id, Cours>, modules: map<Id, Module>) {
    forall d :: d in devoirs ==>
      devoirs[d].cours in courses && (devoirs[d].moduleId.Some? ==> devoirs[d].moduleId.value in modules)
  }

  ghost predicate SoumissionRefs(soumissions: map<Id, Soumission>, devoirs: map<Id, Devoir>, users: map<UserId, User>) {
    forall s :: s in soumissions ==> soumissions[s].devoir in devoirs && soumissions[s].etudiant in users
  }

  ghost predicate InscriptionRefs(inscriptions: map<Id, Inscription>, users: map<UserId, User>, courses: map<Id, Cours>) {
    forall i :: i in inscriptions ==> inscriptions[i].etudiant in users && inscriptions[i].cours in courses
  }

  ghost predicate EvenementRefs(evenements: map<Id, Evenement>, courses: map<Id, Cours>) {
    forall e :: e in evenements ==> evenements[e].cours in courses
  }

  ghost predicate NotificationRefs(notifications: seq<Notification>, users: map<UserId, User>) {
    forall k :: 0 <= k < |notifications| ==> notifications[k].utilisateur in users
  }

  /** Every foreign key points at an existing row. */
  ghost predicate References(st: State) {
    && CoursRefs(st.courses, st.dir.users)
    && ModuleRefs(st.modules, st.courses)
    && RessourceRefs(st.ressources, st.modules)
    && DevoirRefs(st.devoirs, st.courses, st.modules)
    && SoumissionRefs(st.soumissions, st.devoirs, st.dir.users)
    && InscriptionRefs(st.inscriptions, st.dir.users, st.courses)
    && EvenementRefs(st.evenements, st.courses)
    && NotificationRefs(st.notifications, st.dir.users)
  }

  /** Every row id was handed out before `nextId`. */
  ghost predicate IdsBelow(st: State) {
    && (forall k :: k in st.courses ==> k < st.nextId)
    && (forall k :: k in st.modules ==> k < st.nextId)
    && (forall k :: k in st.ressources ==> k < st.nextId)
    && (forall k :: k in st.devoirs ==> k < st.nextId)
    && (forall k :: k in st.soumissions ==> k < st.nextId)
    && (forall k :: k in st.inscriptions ==> k < st.nextId)
    && (forall k :: k in st.evenements ==> k < st.nextId)
  }

  ghost predicate Valid(st: State) {
    && DirValid(st.dir)
    && References(st)
    && IdsBelow(st)
    && UniqueInscriptions(st.inscriptions)
    && UniqueSoumissions(st.soumissions)
  }

  /** The ids of the enrollment rows of one (student, course) pair. */
  function RowsFor(m: map<Id, Inscription>, e: UserId, c: Id): set<Id> {
    set k | k in m && m[k].etudiant == e && m[k].cours == c
  }

  /** The ids of the submissions of one (assignment, student) pair. */
  function SubmissionsFor(m: map<Id, Soumission>, d: Id, e: UserId): set<Id> {
    set k | k in m && m[k].devoir == d && m[k].etudiant == e
  }

  /** Whether `e` has an active enrollment row in course `c`. */
  predicate ActivelyEnrolled(st: State, e: UserId, c: Id) {
    exists k :: k in st.inscriptions && st.inscriptions[k].etudiant == e && st.inscriptions[k].cours == c
                && st.inscriptions[k].statut == Active
  }

  /** The enrollment row of a pair, if there is one. Under the uniqueness
      invariant the row is unique, so the choice is determined. */
  function FindInscription(st: State, e: UserId, c: Id): (r: Option<Id>)
    requires UniqueInscriptions(st.inscriptions)
    ensures r.Some? <==> RowsFor(st.inscriptions, e, c) != {}
    ensures r.Some? ==> RowsFor(st.inscriptions, e, c) == {r.value}
  {
    if exists k :: k in st.inscriptions && st.inscriptions[k].etudiant == e && st.inscriptions[k].cours == c then
      var k :| k in st.inscriptions && st.inscriptions[k].etudiant == e && st.inscriptions[k].cours == c;
      assert k in RowsFor(st.inscriptions, e, c);
      Some(k)
    else
      None
  }

  /** The submission of a pair, if there is one. */
  function FindSoumission(st: State, d: Id, e: UserId): (r: Option<Id>)
    requires UniqueSoumissions(st.soumissions)
    ensures r.Some? <==> SubmissionsFor(st.soumissions, d, e) != {}
    ensures r.Some? ==> SubmissionsFor(st.soumissions, d, e) == {r.value}
  {
    if exists k :: k in st.soumissions && st.soumissions[k].devoir == d && st.soumissions[k].etudiant == e then
      var k :| k in st.soumissions && st.soumissions[k].devoir == d && st.soumissions[k].etudiant == e;
      assert k in SubmissionsFor(st.soumissions, d, e);
      Some(k)
    else
      None
  }

  /** The enrollment rows of a course, whatever their status. */
  function CourseInscriptions(st: State, c: Id): set<Id> {
    set k | k in st.inscriptions && st.inscriptions[k].cours == c
  }

  /** The number of students of a course: only active enrollments count. */
  function NombreEtudiants(st: State, c: Id): (n: nat)
    ensures n <= |CourseInscriptions(st, c)|
    ensures n == 0 <==> forall k :: k in CourseInscriptions(st, c) ==> st.inscriptions[k].statut != Active
  {
    var active := set k | k in st.inscriptions && st.inscriptions[k].cours == c && st.inscriptions[k].statut == Active;
    assert active <= CourseInscriptions(st, c);
    assert forall k :: k in CourseInscriptions(st, c) && st.inscriptions[k].statut == Active ==> k in active;
    SubsetCardinality(active, CourseInscriptions(st, c));
    |active|
  }

  lemma SubsetCardinality<T>(a: set<T>, b: set<T>)
    requires a <= b
    ensures |a| <= |b|
  {
    assert b == a + (b - a);
  }

  /** An assignment is overdue once the clock is strictly past its deadline. */
  predicate DevoirEnRetard(d: Devoir, now: int) {
    now > d.dateLimite
  }

  /** A submission is late when it was handed in strictly after the deadline. */
  predicate SoumissionEnRetard(s: Soumission, d: Devoir) {
    s.dateDepot > d.dateLimite
  }

  /** Exactly at the deadline an assignment is not yet overdue; one tick later it is,
      and once overdue it stays overdue. */
  lemma DevoirRetardThreshold(d: Devoir, now: int, later: int)
    requires now <= later
    ensures !DevoirEnRetard(d, d.dateLimite) && DevoirEnRetard(d, d.dateLimite + 1)
    ensures DevoirEnRetard(d, now) ==> DevoirEnRetard(d, later)
  {
  }

  /** The two lateness signals are independent: a submission handed in on
      time stays on time while its assignment becomes overdue. */
  lemma LatenessSignalsDisagree(d: Devoir, s: Soumission)
    requires s.dateDepot == d.dateLimite
    ensures !SoumissionEnRetard(s, d) && DevoirEnRetard(d, d.dateLimite + 1)
  {
  }

  function ModuleKey(m: Module): OrderKey { OrderKey(m.ordre, m.createdAt) }

  function RessourceKey(r: Ressource): OrderKey { OrderKey(r.ordre, r.createdAt) }
}

=== FILE: learning_forms.dfy ===
/** The e-learning forms: the resource form's own check, the decimal checks
    of the assignment and grading forms, and which fields the submission and
    grading forms are allowed to write. */
module LearningForms {
  import opened Base
  import opened Learning

  /** The cleaned fields of the resource form. An empty `url` or `fichier`
      stands for an absent one. */
  datatype RessourceData = RessourceData(nom: string, rtype: RessourceType, url: string, fichier: string,
                                         description: string, ordre: int)

  datatype RessourceError = UrlRequired | FileRequired

  /** The data-model rule for resources, stated on its own: a video or a link
      carries a URL; a PDF or an image carries a URL or a file. */
  predicate RessourceWellFormed(rtype: RessourceType, url: string, fichier: string) {
    match rtype
    case Video => url != ""
    case Lien => url != ""
    case Pdf => url != "" || fichier != ""
    case Image => url != "" || fichier != ""
  }

  /** The resource form's check: a video or link without a URL is refused
      first; a PDF or image with neither a file nor a URL is refused next;
      everything else passes unchanged. */
  function CleanRessource(f: RessourceData): (r: Result<RessourceData, RessourceError>)
    ensures (f.rtype == Video || f.rtype == Lien) && f.url == "" ==> r == Err(UrlRequired)
    ensures (f.rtype == Pdf || f.rtype == Image) && f.fichier == "" && f.url == "" ==> r == Err(FileRequired)
    ensures r.Ok? <==> RessourceWellFormed(f.rtype, f.url, f.fichier)
    ensures r.Ok? ==> r.value == f
  {
    if (f.rtype == Video || f.rtype == Lien) && f.url == "" then Err(UrlRequired)
    else if (f.rtype == Pdf || f.rtype == Image) && f.fichier == "" && f.url == "" then Err(FileRequired)
    else Ok(f)
  }

  /** The outcome depends only on the type and on whether a URL and a file
      are present; name, description, order and the URL's text do not matter. */
  lemma CleanRessourceDependsOnPresence(f: RessourceData, g: RessourceData)
    requires f.rtype == g.rtype
    requires (f.url == "") == (g.url == "") && (f.fichier == "") == (g.fichier == "")
    ensures CleanRessource(f).Ok? == CleanRessource(g).Ok?
    ensures CleanRessource(f).Err? ==> CleanRessource(f).error == CleanRessource(g).error
  {
  }

  /** A PDF given only by URL and a video with a URL and no file both pass. */
  lemma CleanRessourceExamples(nom: string, url: string)
    requires url != ""
    ensures CleanRessource(RessourceData(nom, Pdf, url, "", "", 0)).Ok?
    ensures CleanRessource(RessourceData(nom, Video, url, "", "", 0)).Ok?
    ensures CleanRessource(RessourceData(nom, Image, "", "", "", 0)) == Err(FileRequired)
  {
  }

  /** The cleaned fields of the assignment form. */
  datatype DevoirData = DevoirData(titre: string, description: string, moduleId: Option<Id>,
                                   dateLimite: int, noteMax: int)

  datatype DevoirError = UnknownModule | NoteMaxTooWide

  /** The assignment form's field checks: a chosen module must exist (any
      module, of any course) and the maximum mark must fit 5 digits with 2
      decimals. The minimum of 0 is only a hint to the browser, so a negative
      maximum passes. */
  function CleanDevoir(st: State, f: DevoirData): (r: Result<DevoirData, DevoirError>)
    ensures r.Ok? <==> (f.moduleId.None? || f.moduleId.value in st.modules) && FitsDecimal52(f.noteMax)
    ensures r.Ok? ==> r.value == f
    ensures f.moduleId.Some? && f.moduleId.value !in st.modules ==> r == Err(UnknownModule)
  {
    if f.moduleId.Some? && f.moduleId.value !in st.modules then Err(UnknownModule)
    else if !FitsDecimal52(f.noteMax) then Err(NoteMaxTooWide)
    else Ok(f)
  }

  /** The fields of the submission form. */
  datatype SoumissionData = SoumissionData(fichier: string, commentaire: string)

  /** Saving the submission form into a submission: it writes the file and
      the student comment and nothing else. */
  function ApplySoumissionForm(s: Soumission, f: SoumissionData): (r: Soumission)
    ensures r.fichier == f.fichier && r.commentaire == f.commentaire
    ensures r.(fichier := s.fichier, commentaire := s.commentaire) == s
  {
    s.(fichier := f.fichier, commentaire := f.commentaire)
  }

  /** The fields of the grading form. An absent mark is allowed. */
  datatype NotationData = NotationData(note: Option<int>, commentaireEnseignant: string)

  /** The grading form's check: a mark, when given, must fit 5 digits with 2
      decimals. Neither 0 nor the assignment's maximum bounds it. */
  function CleanNotation(f: NotationData): (r: Result<NotationData, string>)
    ensures r.Ok? <==> f.note.None? || FitsDecimal52(f.note.value)
    ensures r.Ok? ==> r.value == f
  {
    if f.note.Some? && !FitsDecimal52(f.note.value) then Err("note") else Ok(f)
  }

  /** Saving the grading form into a submission: it writes the mark and the
      teacher comment only; in particular the grading date is left as it was. */
  function ApplyNotation(s: Soumission, f: NotationData): (r: Soumission)
    ensures r.note == f.note && r.commentaireEnseignant == f.commentaireEnseignant
    ensures r.(note := s.note, commentaireEnseignant := s.commentaireEnseignant) == s
    ensures r.dateNotation == s.dateNotation && r.dateDepot == s.dateDepot
  {
    s.(note := f.note, commentaireEnseignant := f.commentaireEnseignant)
  }

  /** Marks outside [0, note_max] pass the grading form's check. */
  lemma NotationUnbounded(noteMax: int)
    requires 0 <= noteMax < 99900
    ensures CleanNotation(NotationData(Some(-1), "")).Ok?
    ensures CleanNotation(NotationData(Some(noteMax + 1), "")).Ok?
  {
  }

  /** The submission form and the grading form write disjoint fields, so
      grading after a resubmission keeps the new content, and resubmitting
      after grading keeps the mark. */
  lemma SubmitAndGradeCommute(s: Soumission, f: SoumissionData, g: NotationData)
    ensures ApplyNotation(ApplySoumissionForm(s, f), g) == ApplySoumissionForm(ApplyNotation(s, g), f)
  {
  }
}

=== FILE: names.dfy ===
/** Matching an instructor to courses by normalized display name. */
module Names {
  import opened Base
  import opened Text
  import opened Accounts
  import opened Learning

  /** A name with whitespace runs collapsed to one space, surrounding
      whitespace removed and letters lower-cased; a missing or empty name
      normalizes to the empty string. */
  function NormalizeName(s: Option<string>): (r: string)
    ensures s == None || s == Some("") ==> r == ""
    ensures Canonical(r) && IsLowerCase(r)
    ensures s.Some? ==> (r == "" <==> forall i :: 0 <= i < |s.value| ==> IsSpace(s.value[i]))
  {
    if s == None || s.value == "" then ""
    else
      var ws := Words(s.value);
      WordsAreWords(s.value);
      JoinCanonical(ws);
      var joined := JoinWords(ws);
      var r := Lower(Strip(joined));
      LowerJoin(ws);
      LowerAllWords(ws);
      JoinCanonical(LowerAll(ws));
      WordsEmptyIffBlank(s.value);
      r
  }

  /** The normalized name is the lower-cased words of the input, one space apart. */
  lemma NormalizeNameWords(s: string)
    ensures NormalizeName(Some(s)) == JoinWords(LowerAll(Words(s)))
  {
    var ws := Words(s);
    WordsAreWords(s);
    JoinCanonical(ws);
    LowerJoin(ws);
    var j := JoinWords(ws);
    assert j == [] || (!IsSpace(j[0]) && !IsSpace(j[|j| - 1]));
    assert Strip(j) == j;
  }

  /** The normalized name is the lower-cased words the character scanner
      reads, one space apart: tabs, newlines and runs of whitespace all
      separate words alike. */
  lemma NormalizeNameScans(s: string)
    ensures NormalizeName(Some(s)) == JoinWords(LowerAll(Scan(s, [])))
  {
    NormalizeNameWords(s);
    WordsIsScan(s);
  }

  /** Normalizing twice is normalizing once. */
  lemma NormalizeNameIdempotent(s: Option<string>)
    ensures NormalizeName(Some(NormalizeName(s))) == NormalizeName(s)
  {
    var n := NormalizeName(s);
    if s.Some? && s.value != "" {
      var ws := LowerAll(Words(s.value));
      NormalizeNameWords(s.value);
      WordsAreWords(s.value);
      LowerAllWords(Words(s.value));
      WordsOfJoin(ws);
      NormalizeNameWords(n);
      LowerAllIdempotent(Words(s.value));
    }
  }

  /** Two names match exactly when they have the same words up to letter case. */
  lemma NamesMatchIff(a: string, b: string)
    ensures NormalizeName(Some(a)) == NormalizeName(Some(b)) <==> LowerAll(Words(a)) == LowerAll(Words(b))
  {
    NormalizeNameWords(a);
    NormalizeNameWords(b);
    WordsAreWords(a);
    WordsAreWords(b);
    LowerAllWords(Words(a));
    LowerAllWords(Words(b));
    WordsOfJoin(LowerAll(Words(a)));
    WordsOfJoin(LowerAll(Words(b)));
  }

  /** A word followed by one space splits into that word. */
  lemma WordThenSpace(w: string)
    requires IsWord(w)
    ensures Words(w + " ") == [w]
  {
    WordsOfWordThen(w, " ");
    WordsOfSpaceThen("");
    assert " " + "" == " ";
  }

  /** Three spaces, a word and a space split into that word. */
  lemma SpacedWord(w: string)
    requires IsWord(w)
    ensures Words("   " + w + " ") == [w]
  {
    var t := w + " ";
    calc {
      Words("   " + w + " ");
    == { assert "   " + w + " " == " " + (" " + (" " + t)); }
      Words(" " + (" " + (" " + t)));
    == { WordsOfSpaceThen(" " + (" " + t)); }
      Words(" " + (" " + t));
    == { WordsOfSpaceThen(" " + t); }
      Words(" " + t);
    == { WordsOfSpaceThen(t); }
      Words(t);
    == { WordThenSpace(w); }
      [w];
    }
  }

  /** Splitting the padded spelling of a two-word name. */
  lemma WordsOfPadded(w: string)
    requires IsWord(w)
    ensures Words("  " + w + "   " + w + " ") == [w, w]
  {
    var t := "   " + w + " ";
    calc {
      Words("  " + w + "   " + w + " ");
    == { assert "  " + w + "   " + w + " " == " " + (" " + (w + t)); }
      Words(" " + (" " + (w + t)));
    == { WordsOfSpaceThen(" " + (w + t)); }
      Words(" " + (w + t));
    == { WordsOfSpaceThen(w + t); }
      Words(w + t);
    == { WordsOfWordThen(w, t); }
      [w] + Words(t);
    == { SpacedWord(w); }
      [w, w];
    }
  }

  /** Splitting the single-spaced spelling of a two-word name. */
  lemma WordsOfSingleSpaced(w: string)
    requires IsWord(w)
    ensures Words(w + " " + w) == [w, w]
  {
    calc {
      Words(w + " " + w);
    == { assert w + " " + w == w + (" " + w); }
      Words(w + (" " + w));
    == { WordsOfWordThen(w, " " + w); }
      [w] + Words(" " + w);
    == { SpaceThenWord(w); }
      [w, w];
    }
  }

  /** A space followed by a word splits into that word. */
  lemma SpaceThenWord(w: string)
    requires IsWord(w)
    ensures Words(" " + w) == [w]
  {
    WordsOfWordThen(w, "");
    assert w + "" == w;
    WordsOfSpaceThen(w);
  }

  /** Lower-casing the example words; a step of `NormalizeNameExamples` only. */
  lemma LowerIyed()
    ensures LowerAll(["Iyed", "Iyed"]) == ["iyed", "iyed"]
    ensures LowerAll(["IYED", "IYED"]) == ["iyed", "iyed"]
    ensures JoinWords(["iyed", "iyed"]) == "iyed iyed"
  {
    assert Lower("Iyed") == "iyed" && Lower("IYED") == "iyed";
    assert ["iyed", "iyed"][1..] == ["iyed"];
  }

  /** The padded example; a step of `NormalizeNameExamples` only. */
  lemma PaddedWords(padded: string)
    requires padded == "  Iyed   Iyed "
    ensures JoinWords(LowerAll(Words(padded))) == "iyed iyed"
  {
    WordsOfPadded("Iyed");
    assert "  " + "Iyed" + "   " + "Iyed" + " " == padded;
    LowerIyed();
  }

  /** The upper-case example; a step of `NormalizeNameExamples` only. */
  lemma UpperWords(upper: string)
    requires upper == "IYED IYED"
    ensures JoinWords(LowerAll(Words(upper))) == "iyed iyed"
  {
    WordsOfSingleSpaced("IYED");
    assert "IYED" + " " + "IYED" == upper;
    LowerIyed();
  }

  /** The two spellings in the function's own documentation normalize alike. */
  lemma NormalizeNameExamples(padded: string, upper: string)
    requires padded == "  Iyed   Iyed " && upper == "IYED IYED"
    ensures NormalizeName(Some(padded)) == "iyed iyed"
    ensures NormalizeName(Some(upper)) == "iyed iyed"
  {
    NormalizeNameWords(padded);
    NormalizeNameWords(upper);
    PaddedWords(padded);
    UpperWords(upper);
  }

  /** The normalized display name of a user. */
  function NormalizedDisplayName(u: User): string {
    NormalizeName(Some(DisplayName(u)))
  }

  /** A course counts as taught by `me` when its teacher exists and has the same
      normalized display name. */
  predicate TaughtBy(users: map<UserId, User>, c: Cours, me: User) {
    c.enseignant in users && NormalizedDisplayName(users[c.enseignant]) == NormalizedDisplayName(me)
  }

  /** The test a catalogue entry passes to count as taught by `me`. */
  function TaughtTest(users: map<UserId, User>, me: User): Cours -> bool {
    c => TaughtBy(users, c, me)
  }

  /** The elements of `xs` that pass `p`, in their order. */
  function Keep<T>(xs: seq<T>, p: T -> bool): seq<T> {
    if xs == [] then []
    else (if p(xs[0]) then [xs[0]] else []) + Keep(xs[1..], p)
  }

  /** `a` is `b` with some elements left out, the rest in the same order. */
  predicate IsSubsequence<T(==)>(a: seq<T>, b: seq<T>)
    decreases |b|
  {
    if b == [] then a == []
    else (a != [] && a[0] == b[0] && IsSubsequence(a[1..], b[1..])) || IsSubsequence(a, b[1..])
  }

  lemma {:induction false} KeepSelects<T>(xs: seq<T>, p: T -> bool)
    ensures IsSubsequence(Keep(xs, p), xs)
    ensures forall x :: x in Keep(xs, p) <==> x in xs && p(x)
    decreases |xs|
  {
    if xs != [] {
      KeepSelects(xs[1..], p);
      var t := Keep(xs, p);
      if p(xs[0]) {
        assert t[1..] == Keep(xs[1..], p);
      } else {
        assert t == Keep(xs[1..], p);
      }
      assert forall x :: x in xs <==> x == xs[0] || x in xs[1..];
    }
  }

  lemma {:induction false} KeepAppend<T>(xs: seq<T>, x: T, p: T -> bool)
    ensures Keep(xs + [x], p) == Keep(xs, p) + (if p(x) then [x] else [])
    decreases |xs|
  {
    var tail := if p(x) then [x] else [];
    if xs == [] {
      assert xs + [x] == [x];
      assert [x][1..] == [];
      assert Keep([x], p) == tail + Keep([], p);
    } else {
      var head := if p(xs[0]) then [xs[0]] else [];
      assert (xs + [x])[0] == xs[0];
      assert (xs + [x])[1..] == xs[1..] + [x];
      KeepAppend(xs[1..], x, p);
      assert Keep(xs + [x], p) == head + (Keep(xs[1..], p) + tail);
      assert Keep(xs, p) == head + Keep(xs[1..], p);
    }
  }

  /** The selection among the first `n` elements, built front to back. */
  function KeepUpTo<T>(xs: seq<T>, n: nat, p: T -> bool): seq<T>
    requires n <= |xs|
  {
    if n == 0 then []
    else if p(xs[n - 1]) then KeepUpTo(xs, n - 1, p) + [xs[n - 1]]
    else KeepUpTo(xs, n - 1, p)
  }

  /** Building front to back selects what the reference selects from the prefix. */
  lemma {:induction false} KeepUpToPrefix<T>(xs: seq<T>, n: nat, p: T -> bool)
    requires n <= |xs|
    ensures KeepUpTo(xs, n, p) == Keep(xs[..n], p)
  {
    if n == 0 {
      assert xs[..0] == [];
    } else {
      KeepUpToPrefix(xs, n - 1, p);
      assert xs[..n] == xs[..n - 1] + [xs[n - 1]];
      KeepAppend(xs[..n - 1], xs[n - 1], p);
      assert Keep(xs[..n - 1], p) + [] == Keep(xs[..n - 1], p);
    }
  }

  /** The reference selection of the courses taught by `me` keeps catalogue
      order and holds exactly the courses whose teacher matches. */
  lemma TaughtSelects(users: map<UserId, User>, cs: seq<Cours>, me: User)
    ensures IsSubsequence(Keep(cs, TaughtTest(users, me)), cs)
    ensures forall c :: c in Keep(cs, TaughtTest(users, me)) <==> c in cs && TaughtBy(users, c, me)
  {
    KeepSelects(cs, TaughtTest(users, me));
  }

  /** The instructor's courses: one pass over the catalogue keeping, in
      order, every course whose teacher exists and whose normalized display
      name equals the user's (`TaughtBy` is that per-course comparison; the
      user's own normalized name does not depend on the course). */
  method InstructorCourses(users: map<UserId, User>, all: seq<Cours>, me: User) returns (matches: seq<Cours>)
    ensures matches == Keep(all, TaughtTest(users, me))
    ensures IsSubsequence(matches, all)
    ensures forall c :: c in matches <==> c in all && TaughtBy(users, c, me)
  {
    matches := [];
    var i := 0;
    while i < |all|
      invariant 0 <= i <= |all|
      invariant matches == KeepUpTo(all, i, TaughtTest(users, me))
    {
      var c := all[i];
      if TaughtBy(users, c, me) {
        matches := matches + [c];
      }
      i := i + 1;
    }
    KeepUpToPrefix(all, |all|, TaughtTest(users, me));
    assert all[..|all|] == all;
    TaughtSelects(users, all, me);
  }
}

=== FILE: ordering.dfy ===
/** The display order of modules and of resources: lexicographic on
    (`ordre`, creation time). `ordre` need not be unique, so rows with equal
    keys may come in either order. */
module Ordering {
  import opened Learning

  /** Lexicographic "comes no later than" on order keys. */
  predicate KeyLe(a: OrderKey, b: OrderKey) {
    a.ordre < b.ordre || (a.ordre == b.ordre && a.createdAt <= b.createdAt)
  }

  /** The key order is a total preorder; distinct rows may share a key. */
  lemma KeyLeTotalPreorder(a: OrderKey, b: OrderKey, c: OrderKey)
    ensures KeyLe(a, a)
    ensures KeyLe(a, b) || KeyLe(b, a)
    ensures KeyLe(a, b) && KeyLe(b, c) ==> KeyLe(a, c)
    ensures KeyLe(a, b) && KeyLe(b, a) ==> a == b
  {
  }

  predicate SortedBy<T>(xs: seq<T>, key: T -> OrderKey) {
    forall i, j :: 0 <= i < j < |xs| ==> KeyLe(key(xs[i]), key(xs[j]))
  }

  /** A row no later than every row of a sorted sequence may go in front. */
  lemma ConsSorted<T>(h: T, rest: seq<T>, key: T -> OrderKey)
    requires SortedBy(rest, key)
    requires forall i :: 0 <= i < |rest| ==> KeyLe(key(h), key(rest[i]))
    ensures SortedBy([h] + rest, key)
  {
    forall i, j | 0 <= i < j < |[h] + rest|
      ensures KeyLe(key(([h] + rest)[i]), key(([h] + rest)[j]))
    {
      if i > 0 {
        assert ([h] + rest)[i] == rest[i - 1];
      }
      assert ([h] + rest)[j] == rest[j - 1];
    }
  }

  /** The head of a sorted sequence is no later than `x` and the rest of it. */
  lemma HeadBounds<T>(xs: seq<T>, x: T, rest: seq<T>, key: T -> OrderKey)
    requires |xs| > 0 && SortedBy(xs, key) && KeyLe(key(xs[0]), key(x))
    requires multiset(rest) == multiset(xs[1..]) + multiset{x}
    ensures forall i :: 0 <= i < |rest| ==> KeyLe(key(xs[0]), key(rest[i]))
  {
    forall i | 0 <= i < |rest|
      ensures KeyLe(key(xs[0]), key(rest[i]))
    {
      assert rest[i] in multiset(rest);
      if rest[i] != x {
        assert rest[i] in multiset(xs[1..]);
        var j :| 0 <= j < |xs[1..]| && xs[1..][j] == rest[i];
        assert xs[j + 1] == rest[i];
      }
    }
  }

  /** Inserts `x` before the first element whose key is strictly greater. */
  function Insert<T>(x: T, xs: seq<T>, key: T -> OrderKey): (r: seq<T>)
    requires SortedBy(xs, key)
    ensures SortedBy(r, key)
    ensures multiset(r) == multiset(xs) + multiset{x}
  {
    if xs == [] then [x]
    else if KeyLe(key(xs[0]), key(x)) then
      var rest := Insert(x, xs[1..], key);
      assert xs == [xs[0]] + xs[1..];
      HeadBounds(xs, x, rest, key);
      ConsSorted(xs[0], rest, key);
      [xs[0]] + rest
    else
      ConsSorted(x, xs, key);
      [x] + xs
  }

  /** Orders rows by their key, keeping every row exactly once. */
  function SortBy<T>(xs: seq<T>, key: T -> OrderKey): (r: seq<T>)
    ensures SortedBy(r, key)
    ensures multiset(r) == multiset(xs)
  {
    if xs == [] then []
    else
      assert xs == [xs[0]] + xs[1..];
      Insert(xs[0], SortBy(xs[1..], key), key)
  }

  /** The given modules (a course's, say) in display order. */
  function OrderModules(ms: seq<Module>): (r: seq<Module>)
    ensures SortedBy(r, ModuleKey)
    ensures multiset(r) == multiset(ms)
  {
    SortBy(ms, ModuleKey)
  }

  /** The given resources (a module's, say) in display order. */
  function OrderRessources(rs: seq<Ressource>): (r: seq<Ressource>)
    ensures SortedBy(r, RessourceKey)
    ensures multiset(r) == multiset(rs)
  {
    SortBy(rs, RessourceKey)
  }
}

=== FILE: permissions.dfy ===
/** The authorization rules the views apply, as predicates on the closed
    role type, and the course-content visibility rule. */
module Permissions {
  import opened Accounts
  import opened Learning

  /** Course creation and the global assignment form are open to teachers only. */
  predicate MayCreateCours(role: Role) {
    role == Enseignant
  }

  /** Editing a course and adding a module or an assignment to it are open to
      the course's own teacher only, whatever the role. */
  predicate OwnsCours(actor: UserId, c: Cours) {
    c.enseignant == actor
  }

  /** Deleting a course is open to its teacher and to every administrator. */
  predicate MayDeleteCours(actor: UserId, role: Role, c: Cours) {
    OwnsCours(actor, c) || role == Admin
  }

  /** Every event operation is open to administrators only. */
  predicate MayManageEvenements(role: Role) {
    role == Admin
  }

  /** Only students may enroll. */
  predicate MayEnroll(role: Role) {
    role == Etudiant
  }

  /** The content of a course is shown to its teacher, to a student with an
      active enrollment, and to everybody once the course is published. An
      active enrollment row of a user who is not a student does not count. */
  predicate PeutVoirContenu(st: State, actor: UserId, role: Role, c: Id)
    requires c in st.courses
  {
    OwnsCours(actor, st.courses[c])
    || (role == Etudiant && ActivelyEnrolled(st, actor, c))
    || st.courses[c].statut == Publie
  }

  /** For a course that is not published, content is visible exactly to the
      teacher and to actively enrolled students; in particular an
      administrator who may delete a draft may not see its content. */
  lemma DraftVisibility(st: State, actor: UserId, role: Role, c: Id)
    requires c in st.courses && st.courses[c].statut != Publie
    ensures PeutVoirContenu(st, actor, role, c) <==>
              OwnsCours(actor, st.courses[c]) || (role == Etudiant && ActivelyEnrolled(st, actor, c))
    ensures role == Admin && !OwnsCours(actor, st.courses[c]) ==>
              MayDeleteCours(actor, role, st.courses[c]) && !PeutVoirContenu(st, actor, role, c)
  {
  }
}

=== FILE: submission.dfy ===
/** Submitting an assignment: open to users actively enrolled in the
    assignment's course; it finds the user's submission for the assignment
    or creates it, so there is never more than one. */
module Submission {
  import opened Base
  import opened Accounts
  import opened Learning
  import opened LearningForms
  import opened Views

  /** A fresh submission: filed now, not graded. */
  function NewSoumission(d: Id, e: UserId, f: SoumissionData, now: int): (s: Soumission)
    ensures s.devoir == d && s.etudiant == e && s.dateDepot == now
    ensures s.fichier == f.fichier && s.commentaire == f.commentaire
    ensures s.note.None? && s.dateNotation.None? && s.commentaireEnseignant == ""
  {
    Soumission(d, e, f.fichier, f.commentaire, now, None, "", None)
  }

  /** A submission for a pair that has none keeps the table unique. */
  lemma AddSoumissionUnique(m: map<Id, Soumission>, id: Id, s: Soumission)
    requires UniqueSoumissions(m) && id !in m && SubmissionsFor(m, s.devoir, s.etudiant) == {}
    ensures UniqueSoumissions(m[id := s])
  {
    assert forall a :: a in m ==>
      (a in SubmissionsFor(m, s.devoir, s.etudiant) <==> m[a].devoir == s.devoir && m[a].etudiant == s.etudiant);
  }

  lemma AddSoumissionValid(st: State, s: Soumission)
    requires Valid(st) && s.devoir in st.devoirs && s.etudiant in st.dir.users
    requires SubmissionsFor(st.soumissions, s.devoir, s.etudiant) == {}
    ensures Valid(st.(soumissions := st.soumissions[st.nextId := s], nextId := st.nextId + 1))
  {
    assert st.nextId !in st.soumissions;
    AddSoumissionUnique(st.soumissions, st.nextId, s);
  }

  lemma ReplaceSoumissionUnique(m: map<Id, Soumission>, k: Id, s: Soumission)
    requires UniqueSoumissions(m) && k in m
    requires s.devoir == m[k].devoir && s.etudiant == m[k].etudiant
    ensures UniqueSoumissions(m[k := s])
  {
    var m2 := m[k := s];
    assert forall a :: a in m2 ==> m2[a].devoir == m[a].devoir && m2[a].etudiant == m[a].etudiant;
  }

  /** Overwriting a submission with one for the same pair leaves every
      pair's submission ids as they were. */
  lemma ReplaceKeepsPairs(m: map<Id, Soumission>, k: Id, s: Soumission, d: Id, e: UserId)
    requires k in m && s.devoir == m[k].devoir && s.etudiant == m[k].etudiant
    ensures SubmissionsFor(m[k := s], d, e) == SubmissionsFor(m, d, e)
  {
    var m2 := m[k := s];
    assert forall a :: a in m2 ==> m2[a].devoir == m[a].devoir && m2[a].etudiant == m[a].etudiant;
  }

  lemma ReplaceSoumissionValid(st: State, k: Id, s: Soumission)
    requires Valid(st) && k in st.soumissions
    requires s.devoir == st.soumissions[k].devoir && s.etudiant == st.soumissions[k].etudiant
    ensures Valid(st.(soumissions := st.soumissions[k := s]))
  {
    ReplaceSoumissionUnique(st.soumissions, k, s);
  }

  /** Saving the form over the pair's existing submission `k`. */
  function Resubmit(st: State, d: Id, actor: UserId, k: Id, f: SoumissionData): (r: Step)
    requires Valid(st) && k in st.soumissions && SubmissionsFor(st.soumissions, d, actor) == {k}
    ensures Valid(r.st) && r.reply == Saved(k)
    ensures SubmissionsFor(r.st.soumissions, d, actor) == {k}
    ensures r.st.soumissions.Keys == st.soumissions.Keys
    ensures r.st.soumissions[k] == ApplySoumissionForm(st.soumissions[k], f)
    ensures forall j :: j in st.soumissions && j != k ==> r.st.soumissions[j] == st.soumissions[j]
    ensures r.st.soumissions == st.soumissions[k := ApplySoumissionForm(st.soumissions[k], f)]
    ensures r.st.(soumissions := st.soumissions) == st
  {
    var s := ApplySoumissionForm(st.soumissions[k], f);
    ReplaceSoumissionValid(st, k, s);
    var m := st.soumissions[k := s];
    ReplaceKeepsPairs(st.soumissions, k, s, d, actor);
    Step(st.(soumissions := m), Saved(k))
  }

  /** Filing the pair's first submission at the next id. */
  function FirstSubmission(st: State, d: Id, actor: UserId, f: SoumissionData, now: int): (r: Step)
    requires Valid(st) && d in st.devoirs && actor in st.dir.users
    requires SubmissionsFor(st.soumissions, d, actor) == {}
    ensures Valid(r.st) && r.reply == Saved(st.nextId) && st.nextId !in st.soumissions
    ensures SubmissionsFor(r.st.soumissions, d, actor) == {st.nextId}
    ensures r.st.soumissions == st.soumissions[st.nextId := NewSoumission(d, actor, f, now)]
    ensures r.st.(soumissions := st.soumissions, nextId := st.nextId) == st
  {
    var s := NewSoumission(d, actor, f, now);
    AddSoumissionValid(st, s);
    var m := st.soumissions[st.nextId := s];
    assert st.nextId !in st.soumissions;
    assert st.nextId in SubmissionsFor(m, d, actor);
    assert SubmissionsFor(m, d, actor) == {st.nextId};
    Step(st.(soumissions := m, nextId := st.nextId + 1), Saved(st.nextId))
  }

  /** Saving a valid form: find the pair's submission or create it. */
  function SaveSubmission(st: State, d: Id, actor: UserId, f: SoumissionData, now: int): (r: Step)
    requires Valid(st) && d in st.devoirs && actor in st.dir.users
    ensures Valid(r.st) && r.reply.Saved?
    ensures SubmissionsFor(r.st.soumissions, d, actor) == {r.reply.id}
    ensures r.st.soumissions == st.soumissions[r.reply.id := r.st.soumissions[r.reply.id]]
    ensures r.reply.id in st.soumissions ==>
      r.st.soumissions[r.reply.id] == ApplySoumissionForm(st.soumissions[r.reply.id], f)
    ensures r.reply.id !in st.soumissions ==>
      r.reply.id == st.nextId && r.st.soumissions[r.reply.id] == NewSoumission(d, actor, f, now)
    ensures r.st.(soumissions := st.soumissions, nextId := st.nextId) == st
  {
    match FindSoumission(st, d, actor)
    case Some(k) =>
      assert k in SubmissionsFor(st.soumissions, d, actor);
      Resubmit(st, d, actor, k, f)
    case None => FirstSubmission(st, d, actor, f, now)
  }

  /** The submission view. Without an active enrollment in the assignment's
      course the answer is a refusal, whatever the user's role. A valid form
      overwrites the file and the comment of the existing submission, keeping
      its filing date and its grade, or else files a new one. */
  function DevoirSubmit(st: State, actor: UserId, d: Id, form: Option<SoumissionData>, now: int): (r: Step)
    requires Valid(st) && actor in st.dir.users
    ensures Valid(r.st)
    ensures d !in st.devoirs ==> r == Step(st, NotFound)
    ensures d in st.devoirs && !ActivelyEnrolled(st, actor, st.devoirs[d].cours) ==> r == Step(st, Forbidden)
    ensures r.st != st ==> d in st.devoirs && ActivelyEnrolled(st, actor, st.devoirs[d].cours) && form.Some?
    ensures d in st.devoirs && ActivelyEnrolled(st, actor, st.devoirs[d].cours) && form.Some? ==>
      && r.reply.Saved?
      && SubmissionsFor(r.st.soumissions, d, actor) == {r.reply.id}
      && r.st.soumissions.Keys == st.soumissions.Keys + {r.reply.id}
      && (forall k :: k in st.soumissions && k != r.reply.id ==> r.st.soumissions[k] == st.soumissions[k])
      && (r.reply.id in st.soumissions ==>
            r.st.soumissions[r.reply.id] == ApplySoumissionForm(st.soumissions[r.reply.id], form.value))
      && (r.reply.id !in st.soumissions ==>
            r.st.soumissions[r.reply.id] == NewSoumission(d, actor, form.value, now))
    ensures r.st.(soumissions := st.soumissions, nextId := st.nextId) == st
  {
    if d !in st.devoirs then Step(st, NotFound)
    else if !ActivelyEnrolled(st, actor, st.devoirs[d].cours) then Step(st, Forbidden)
    else if form.None? then Step(st, FormShown)
    else
      var r := SaveSubmission(st, d, actor, form.value, now);
      UpdateOneRow(st.soumissions, r.reply.id, r.st.soumissions[r.reply.id]);
      r
  }

  /** Writing one id of a table adds at most that id and keeps every other row. */
  lemma UpdateOneRow(m: map<Id, Soumission>, id: Id, s: Soumission)
    ensures m[id := s].Keys == m.Keys + {id}
    ensures forall k :: k in m && k != id ==> m[id := s][k] == m[k]
  {
  }

  /** What a saved submission holds: the form's file and comment; an
      existing submission keeps its filing date, its mark, its grading date
      and the teacher's comment, a new one is filed now and ungraded. */
  lemma DevoirSubmitSaves(st: State, actor: UserId, d: Id, f: SoumissionData, now: int)
    requires Valid(st) && actor in st.dir.users && d in st.devoirs
    requires ActivelyEnrolled(st, actor, st.devoirs[d].cours)
    ensures var r := DevoirSubmit(st, actor, d, Some(f), now);
      && r.reply.Saved? && r.reply.id in r.st.soumissions
      && r.st.soumissions[r.reply.id].fichier == f.fichier
      && r.st.soumissions[r.reply.id].commentaire == f.commentaire
      && (r.reply.id in st.soumissions ==>
            && SubmissionsFor(st.soumissions, d, actor) == {r.reply.id}
            && r.st.soumissions[r.reply.id].dateDepot == st.soumissions[r.reply.id].dateDepot
            && r.st.soumissions[r.reply.id].note == st.soumissions[r.reply.id].note
            && r.st.soumissions[r.reply.id].dateNotation == st.soumissions[r.reply.id].dateNotation
            && r.st.soumissions[r.reply.id].commentaireEnseignant == st.soumissions[r.reply.id].commentaireEnseignant)
      && (r.reply.id !in st.soumissions ==>
            && SubmissionsFor(st.soumissions, d, actor) == {}
            && r.st.soumissions[r.reply.id].dateDepot == now && r.st.soumissions[r.reply.id].note.None?
            && r.st.soumissions[r.reply.id].dateNotation.None? && r.st.soumissions[r.reply.id].commentaireEnseignant == "")
  {
    match FindSoumission(st, d, actor)
    case Some(k) =>
      assert k in SubmissionsFor(st.soumissions, d, actor);
    case None =>
  }

  /** Submitting twice leaves one submission, with the second version's
      content and the first version's filing date. */
  lemma ResubmitKeepsOne(st: State, actor: UserId, d: Id, v1: SoumissionData, v2: SoumissionData, t1: int, t2: int)
    requires Valid(st) && actor in st.dir.users && d in st.devoirs
    requires ActivelyEnrolled(st, actor, st.devoirs[d].cours)
    ensures var s1 := DevoirSubmit(st, actor, d, Some(v1), t1);
            var s2 := DevoirSubmit(s1.st, actor, d, Some(v2), t2);
            && s1.reply.Saved? && s2.reply == s1.reply
            && SubmissionsFor(s2.st.soumissions, d, actor) == {s1.reply.id}
            && s2.st.soumissions[s1.reply.id].fichier == v2.fichier
            && s2.st.soumissions[s1.reply.id].commentaire == v2.commentaire
            && s2.st.soumissions[s1.reply.id].dateDepot == s1.st.soumissions[s1.reply.id].dateDepot
  {
    var s1 := DevoirSubmit(st, actor, d, Some(v1), t1);
    assert s1.st.inscriptions == st.inscriptions && s1.st.devoirs == st.devoirs;
    assert ActivelyEnrolled(s1.st, actor, s1.st.devoirs[d].cours);
    DevoirSubmitSaves(st, actor, d, v1, t1);
    DevoirSubmitSaves(s1.st, actor, d, v2, t2);
  }

  /** Whether a submission is late is fixed by its first filing: a
      resubmission after the deadline does not make an on-time submission
      late. */
  lemma LatenessFixedAtFirstFiling(st: State, actor: UserId, d: Id, f: SoumissionData, now: int, k: Id)
    requires Valid(st) && actor in st.dir.users && d in st.devoirs
    requires k in st.soumissions && st.soumissions[k].devoir == d && st.soumissions[k].etudiant == actor
    requires ActivelyEnrolled(st, actor, st.devoirs[d].cours)
    ensures DevoirSubmit(st, actor, d, Some(f), now).reply == Saved(k)
    ensures SoumissionEnRetard(DevoirSubmit(st, actor, d, Some(f), now).st.soumissions[k], st.devoirs[d])
            == SoumissionEnRetard(st.soumissions[k], st.devoirs[d])
  {
    var r := DevoirSubmit(st, actor, d, Some(f), now);
    DevoirSubmitSaves(st, actor, d, f, now);
    assert k in SubmissionsFor(st.soumissions, d, actor);
    assert r.reply.id in st.soumissions;
  }
}

=== FILE: text.dfy ===
/** Strings as Python's `str.split()`, `str.strip()`, `' '.join(...)` and
    `str.lower()` treat them, restricted to ASCII whitespace and ASCII letters. */
module Text {

  /** The ASCII characters Python's `str.isspace()` accepts: space, the
      controls TAB through CR, and the four separators FS, GS, RS and US. */
  predicate IsSpace(c: char) {
    c == ' ' || ('\t' <= c <= '\r') || ('\U{001C}' <= c <= '\U{001F}')
  }

  predicate IsUpper(c: char) {
    'A' <= c <= 'Z'
  }

  /** No upper-case letter anywhere in `s`. */
  predicate IsLowerCase(s: string) {
    forall i :: 0 <= i < |s| ==> !IsUpper(s[i])
  }

  function LowerChar(c: char): (r: char)
    ensures !IsUpper(r)
    ensures IsSpace(r) <==> IsSpace(c)
    ensures !IsUpper(c) ==> r == c
  {
    if IsUpper(c) then (c as int + 32) as char else c
  }

  /** `str.lower()` on ASCII. */
  function Lower(s: string): (r: string)
    ensures |r| == |s|
    ensures IsLowerCase(r)
    ensures forall i :: 0 <= i < |s| ==> (IsSpace(r[i]) <==> IsSpace(s[i]))
    ensures forall i :: 0 <= i < |s| && IsUpper(s[i]) ==> r[i] as int == s[i] as int + 32
    ensures forall i :: 0 <= i < |s| && !IsUpper(s[i]) ==> r[i] == s[i]
  {
    seq(|s|, i requires 0 <= i < |s| => LowerChar(s[i]))
  }

  /** `str.lstrip()`: drops leading whitespace. */
  function StripLeft(s: string): (r: string)
    ensures r == [] || !IsSpace(r[0])
    ensures |r| <= |s| && r == s[|s| - |r|..]
    ensures forall i :: 0 <= i < |s| - |r| ==> IsSpace(s[i])
  {
    if s != [] && IsSpace(s[0]) then StripLeft(s[1..]) else s
  }

  /** `str.rstrip()`: drops trailing whitespace. */
  function StripRight(s: string): (r: string)
    ensures r == [] || !IsSpace(r[|r| - 1])
    ensures |r| <= |s| && r == s[..|r|]
    ensures forall i :: |r| <= i < |s| ==> IsSpace(s[i])
  {
    if s != [] && IsSpace(s[|s| - 1]) then StripRight(s[..|s| - 1]) else s
  }

  /** `s[i..j]` is a slice of `s` with only whitespace before and after it. */
  predicate OnlySpaceOutside(s: string, i: int, j: int) {
    && 0 <= i <= j <= |s|
    && (forall m :: 0 <= m < i ==> IsSpace(s[m]))
    && (forall m :: j <= m < |s| ==> IsSpace(s[m]))
  }

  /** A right-trimmed left-trimmed string is a slice with only whitespace around it. */
  lemma TrimmedSlice(s: string, l: string, r: string)
    requires |l| <= |s| && l == s[|s| - |l|..] && forall m :: 0 <= m < |s| - |l| ==> IsSpace(s[m])
    requires |r| <= |l| && r == l[..|r|] && forall m :: |r| <= m < |l| ==> IsSpace(l[m])
    ensures OnlySpaceOutside(s, |s| - |l|, |s| - |l| + |r|) && r == s[|s| - |l|..|s| - |l| + |r|]
  {
    var i := |s| - |l|;
    forall m | i + |r| <= m < |s|
      ensures IsSpace(s[m])
    {
      assert s[m] == l[m - i];
    }
  }

  /** `str.strip()`. */
  function Strip(s: string): (r: string)
    ensures r == [] || (!IsSpace(r[0]) && !IsSpace(r[|r| - 1]))
    ensures s == [] || (!IsSpace(s[0]) && !IsSpace(s[|s| - 1])) ==> r == s
    ensures exists i, j :: OnlySpaceOutside(s, i, j) && r == s[i..j]
  {
    var l := StripLeft(s);
    var r := StripRight(l);
    assert exists i, j :: OnlySpaceOutside(s, i, j) && r == s[i..j] by {
      TrimmedSlice(s, l, r);
    }
    r
  }

  /** Stripping an all-whitespace string leaves nothing. */
  lemma StripOfBlank(s: string)
    requires forall m :: 0 <= m < |s| ==> IsSpace(s[m])
    ensures Strip(s) == []
  {
  }

  /** Number of leading non-whitespace characters of `s`. */
  function WordLen(s: string): (n: nat)
    ensures n <= |s|
    ensures forall i :: 0 <= i < n ==> !IsSpace(s[i])
    ensures n < |s| ==> IsSpace(s[n])
  {
    if s == [] || IsSpace(s[0]) then 0 else 1 + WordLen(s[1..])
  }

  /** A word of `str.split()`: non-empty and free of whitespace. */
  predicate IsWord(w: string) {
    |w| > 0 && forall i :: 0 <= i < |w| ==> !IsSpace(w[i])
  }

  predicate AllWords(ws: seq<string>) {
    forall k :: 0 <= k < |ws| ==> IsWord(ws[k])
  }

  /** `str.split()` with no separator: the maximal runs of non-whitespace. */
  function Words(s: string): (ws: seq<string>)
    decreases |s|
  {
    if s == [] then []
    else if IsSpace(s[0]) then Words(s[1..])
    else
      var n := WordLen(s);
      [s[..n]] + Words(s[n..])
  }

  /** A reference for `str.split()` that reads one character at a time,
      as CPython's splitter does: `cur` is the word read so far, and each
      whitespace character ends it. */
  function Scan(s: string, cur: string): seq<string>
    decreases |s|
  {
    if s == [] then (if cur == [] then [] else [cur])
    else if IsSpace(s[0]) then (if cur == [] then Scan(s[1..], []) else [cur] + Scan(s[1..], []))
    else Scan(s[1..], cur + [s[0]])
  }

  /** Splitting into maximal runs agrees with the character scanner, from
      any partial word onwards. */
  lemma {:induction false} WordsIsScanFrom(s: string, cur: string)
    requires forall i :: 0 <= i < |cur| ==> !IsSpace(cur[i])
    ensures Words(cur + s) == Scan(s, cur)
    decreases |s|
  {
    if s == [] {
      assert cur + s == cur;
      if cur != [] {
        WordsOfWordThen(cur, "");
        assert cur + "" == cur;
      }
    } else if IsSpace(s[0]) {
      WordsIsScanFrom(s[1..], []);
      assert [] + s[1..] == s[1..];
      if cur == [] {
        assert cur + s == s;
      } else {
        WordsOfWordThen(cur, s);
      }
    } else {
      WordsIsScanFrom(s[1..], cur + [s[0]]);
      assert cur + [s[0]] + s[1..] == cur + s;
    }
  }

  /** `Words` is the character scanner started with no partial word. */
  lemma WordsIsScan(s: string)
    ensures Words(s) == Scan(s, [])
  {
    WordsIsScanFrom(s, []);
    assert [] + s == s;
  }

  /** A tab and a space both separate words. */
  lemma WordsMixedSpaceExample()
    ensures Words("a\tb  c") == ["a", "b", "c"]
  {
    WordsIsScan("a\tb  c");
    assert Scan("c", []) == Scan("", "c") == ["c"] by { assert [] + ['c'] == "c"; }
    assert Scan(" c", []) == Scan("c", []) by { assert " c"[1..] == "c"; }
    assert Scan("  c", "b") == ["b"] + Scan(" c", []) by { assert "  c"[1..] == " c"; }
    assert Scan("b  c", []) == Scan("  c", "b") by { assert "b  c"[1..] == "  c" && [] + ['b'] == "b"; }
    assert Scan("\tb  c", "a") == ["a"] + Scan("b  c", []) by { assert "\tb  c"[1..] == "b  c"; }
    assert Scan("a\tb  c", []) == Scan("\tb  c", "a") by { assert "a\tb  c"[1..] == "\tb  c" && [] + ['a'] == "a"; }
  }

  /** `' '.join(ws)`. */
  function JoinWords(ws: seq<string>): (r: string)
    ensures ws != [] ==> |r| >= |ws[0]| && r[..|ws[0]|] == ws[0]
  {
    if ws == [] then ""
    else if |ws| == 1 then ws[0]
    else ws[0] + " " + JoinWords(ws[1..])
  }

  function LowerAll(ws: seq<string>): (r: seq<string>)
    ensures |r| == |ws|
  {
    seq(|ws|, k requires 0 <= k < |ws| => Lower(ws[k]))
  }

  /** The shape of a normalized name: the only whitespace is a single ' '
      strictly inside the string, never followed by more whitespace. */
  predicate Canonical(t: string) {
    forall i :: 0 <= i < |t| && IsSpace(t[i]) ==> t[i] == ' ' && 0 < i < |t| - 1 && !IsSpace(t[i + 1])
  }

  lemma {:induction false} WordsAreWords(s: string)
    ensures AllWords(Words(s))
    decreases |s|
  {
    if s == [] {
    } else if IsSpace(s[0]) {
      WordsAreWords(s[1..]);
    } else {
      var n := WordLen(s);
      WordsAreWords(s[n..]);
    }
  }

  /** Splitting a string that starts with a word followed by whitespace (or
      nothing) yields that word first. */
  lemma WordsOfWordThen(w: string, tail: string)
    requires IsWord(w)
    requires tail == [] || IsSpace(tail[0])
    ensures Words(w + tail) == [w] + Words(tail)
  {
    var s := w + tail;
    var n := WordLen(s);
    assert forall i :: 0 <= i < |w| ==> s[i] == w[i];
    assert |w| < |s| ==> s[|w|] == tail[0];
    assert n == |w|;
    assert s[..n] == w;
    assert s[n..] == tail;
  }

  lemma WordsOfSpaceThen(rest: string)
    ensures Words(" " + rest) == Words(rest)
  {
    assert (" " + rest)[1..] == rest;
  }

  /** Joining well-formed words and splitting again gives the words back. */
  lemma {:induction false} WordsOfJoin(ws: seq<string>)
    requires AllWords(ws)
    ensures Words(JoinWords(ws)) == ws
    decreases |ws|
  {
    if ws == [] {
    } else if |ws| == 1 {
      WordsOfWordThen(ws[0], "");
      assert ws[0] + "" == ws[0];
    } else {
      var rest := JoinWords(ws[1..]);
      WordsOfJoin(ws[1..]);
      WordsOfWordThen(ws[0], " " + rest);
      WordsOfSpaceThen(rest);
      assert ws[0] + " " + rest == ws[0] + (" " + rest);
      assert [ws[0]] + ws[1..] == ws;
    }
  }

  /** Joining well-formed words gives a canonical string. */
  lemma {:induction false} JoinCanonical(ws: seq<string>)
    requires AllWords(ws)
    ensures Canonical(JoinWords(ws))
    decreases |ws|
  {
    if |ws| > 1 {
      var w := ws[0];
      var rest := JoinWords(ws[1..]);
      JoinCanonical(ws[1..]);
      var t := JoinWords(ws);
      assert t == w + " " + rest;
      assert |rest| > 0 && rest[0] == ws[1][0];
      assert forall i :: 0 <= i < |w| ==> t[i] == w[i];
      assert t[|w|] == ' ' && t[|w| + 1] == rest[0];
      assert forall i :: |w| < i < |t| ==> t[i] == rest[i - |w| - 1];
    } else if |ws| == 1 {
      assert IsWord(ws[0]);
    }
  }

  lemma LowerConcat(a: string, b: string)
    ensures Lower(a + b) == Lower(a) + Lower(b)
  {
  }

  lemma {:induction false} LowerJoin(ws: seq<string>)
    ensures Lower(JoinWords(ws)) == JoinWords(LowerAll(ws))
    decreases |ws|
  {
    if |ws| > 1 {
      LowerJoin(ws[1..]);
      LowerConcat(ws[0] + " ", JoinWords(ws[1..]));
      LowerConcat(ws[0], " ");
      assert LowerAll(ws)[1..] == LowerAll(ws[1..]);
    }
  }

  lemma LowerAllWords(ws: seq<string>)
    requires AllWords(ws)
    ensures AllWords(LowerAll(ws))
  {
    forall k | 0 <= k < |ws|
      ensures IsWord(LowerAll(ws)[k])
    {
      assert IsWord(ws[k]);
    }
  }

  lemma LowerIdempotent(s: string)
    ensures Lower(Lower(s)) == Lower(s)
  {
  }

  lemma LowerAllIdempotent(ws: seq<string>)
    ensures LowerAll(LowerAll(ws)) == LowerAll(ws)
  {
    forall k | 0 <= k < |ws|
      ensures LowerAll(LowerAll(ws))[k] == LowerAll(ws)[k]
    {
      LowerIdempotent(ws[k]);
    }
  }

  /** A string splits into no words exactly when it is all whitespace. */
  lemma WordsEmptyIffBlank(s: string)
    ensures Words(s) == [] <==> forall i :: 0 <= i < |s| ==> IsSpace(s[i])
    decreases |s|
  {
    if s != [] && IsSpace(s[0]) {
      WordsEmptyIffBlank(s[1..]);
      assert forall i :: 1 <= i < |s| ==> s[i] == s[1..][i - 1];
    }
  }
}

=== FILE: views.dfy ===
/** The course, module, assignment and event views as state transformers:
    each takes the store, the signed-in user and the submitted form (absent
    for a GET or an invalid form) and returns the new store and the reply. */
module Views {
  import opened Base
  import opened Accounts
  import opened Learning
  import opened Permissions
  import opened LearningForms
  import opened Cascade

  /** What a view answers. `Forbidden` covers both the 403 answer and the
      redirect-with-error the role checks use; `FormShown` is a page with
      nothing saved (a GET, an invalid form, a confirmation page). */
  datatype Reply =
    | Forbidden
    | NotFound
    | FormShown
    | Saved(id: Id)
    | Removed
    | AlreadyEnrolled
    | Reenrolled
    | Withdrawn

  datatype Step = Step(st: State, reply: Reply)

  /** The fields of the course form. The teacher is never one of them. */
  datatype CoursData = CoursData(titre: string, description: string, statut: CoursStatut,
                                 dateDebut: Option<int>, dateFin: Option<int>)

  /** The fields of the module form. */
  datatype ModuleData = ModuleData(titre: string, description: string, ordre: int)

  /** The fields of the event form; the chosen course must exist. */
  datatype EvenementData = EvenementData(cours: Id, titre: string, description: string, etype: EvenementType,
                                         dateDebut: int, dateFin: int, lieu: string)

  /** The course as the form describes it. */
  predicate CoursMatchesForm(c: Cours, f: CoursData) {
    c.titre == f.titre && c.description == f.description && c.statut == f.statut
    && c.dateDebut == f.dateDebut && c.dateFin == f.dateFin
  }

  /** The event as the form describes it. */
  predicate EvenementMatchesForm(e: Evenement, f: EvenementData) {
    e.cours == f.cours && e.titre == f.titre && e.description == f.description && e.etype == f.etype
    && e.dateDebut == f.dateDebut && e.dateFin == f.dateFin && e.lieu == f.lieu
  }

  lemma AddCoursValid(st: State, c: Cours)
    requires Valid(st) && c.enseignant in st.dir.users
    ensures Valid(st.(courses := st.courses[st.nextId := c], nextId := st.nextId + 1))
  {
  }

  lemma UpdateCoursValid(st: State, k: Id, c: Cours)
    requires Valid(st) && k in st.courses && c.enseignant in st.dir.users
    ensures Valid(st.(courses := st.courses[k := c]))
  {
  }

  lemma AddModuleValid(st: State, m: Module)
    requires Valid(st) && m.cours in st.courses
    ensures Valid(st.(modules := st.modules[st.nextId := m], nextId := st.nextId + 1))
  {
  }

  lemma AddDevoirValid(st: State, d: Devoir)
    requires Valid(st) && d.cours in st.courses && (d.moduleId.None? || d.moduleId.value in st.modules)
    ensures Valid(st.(devoirs := st.devoirs[st.nextId := d], nextId := st.nextId + 1))
  {
  }

  lemma AddEvenementValid(st: State, e: Evenement)
    requires Valid(st) && e.cours in st.courses
    ensures Valid(st.(evenements := st.evenements[st.nextId := e], nextId := st.nextId + 1))
  {
  }

  lemma UpdateEvenementValid(st: State, k: Id, e: Evenement)
    requires Valid(st) && k in st.evenements && e.cours in st.courses
    ensures Valid(st.(evenements := st.evenements[k := e]))
  {
  }

  lemma RemoveEvenementValid(st: State, k: Id)
    requires Valid(st)
    ensures Valid(st.(evenements := st.evenements - {k}))
  {
  }

  /** Course creation: teachers only; the new course belongs to the user. */
  function CoursCreate(st: State, actor: UserId, form: Option<CoursData>, now: int): (r: Step)
    requires Valid(st) && actor in st.dir.users
    ensures Valid(r.st)
    ensures !MayCreateCours(RoleOf(st.dir, actor)) ==> r == Step(st, Forbidden)
    ensures MayCreateCours(RoleOf(st.dir, actor)) && form.None? ==> r == Step(st, FormShown)
    ensures MayCreateCours(RoleOf(st.dir, actor)) && form.Some? ==>
      && r.reply.Saved? && r.reply.id !in st.courses
      && r.reply.id in r.st.courses && r.st.courses == st.courses[r.reply.id := r.st.courses[r.reply.id]]
      && r.st.courses[r.reply.id].enseignant == actor
      && CoursMatchesForm(r.st.courses[r.reply.id], form.value)
      && r.st.courses[r.reply.id].createdAt == now
      && r.st.(courses := st.courses, nextId := st.nextId) == st
  {
    if !IsEnseignant(st.dir.profiles[actor]) then Step(st, Forbidden)
    else if form.None? then Step(st, FormShown)
    else
      var f := form.value;
      var c := Cours(f.titre, f.description, actor, f.statut, f.dateDebut, f.dateFin, now);
      AddCoursValid(st, c);
      Step(st.(courses := st.courses[st.nextId := c], nextId := st.nextId + 1), Saved(st.nextId))
  }

  /** Course update: the course's teacher only; the teacher and creation
      time stay, the form's fields are written. */
  function CoursUpdate(st: State, actor: UserId, k: Id, form: Option<CoursData>): (r: Step)
    requires Valid(st) && actor in st.dir.users
    ensures Valid(r.st)
    ensures k !in st.courses ==> r == Step(st, NotFound)
    ensures k in st.courses && !OwnsCours(actor, st.courses[k]) ==> r == Step(st, Forbidden)
    ensures r.st != st ==> k in st.courses && OwnsCours(actor, st.courses[k]) && form.Some?
    ensures k in st.courses && OwnsCours(actor, st.courses[k]) && form.Some? ==>
      && r.reply == Saved(k)
      && r.st.courses.Keys == st.courses.Keys
      && CoursMatchesForm(r.st.courses[k], form.value)
      && r.st.courses[k].enseignant == actor && r.st.courses[k].createdAt == st.courses[k].createdAt
      && (forall j :: j in st.courses && j != k ==> r.st.courses[j] == st.courses[j])
      && r.st.(courses := st.courses) == st
  {
    if k !in st.courses then Step(st, NotFound)
    else if st.courses[k].enseignant != actor then Step(st, Forbidden)
    else if form.None? then Step(st, FormShown)
    else
      var f := form.value;
      var c := st.courses[k].(titre := f.titre, description := f.description, statut := f.statut,
                              dateDebut := f.dateDebut, dateFin := f.dateFin);
      UpdateCoursValid(st, k, c);
      Step(st.(courses := st.courses[k := c]), Saved(k))
  }

  /** Course deletion: the teacher or an administrator; a confirmed request
      cascades through everything that hangs off the course. */
  function CoursDelete(st: State, actor: UserId, k: Id, post: bool): (r: Step)
    requires Valid(st) && actor in st.dir.users
    ensures Valid(r.st)
    ensures k !in st.courses ==> r == Step(st, NotFound)
    ensures k in st.courses && !MayDeleteCours(actor, RoleOf(st.dir, actor), st.courses[k]) ==> r == Step(st, Forbidden)
    ensures k in st.courses && MayDeleteCours(actor, RoleOf(st.dir, actor), st.courses[k]) && !post ==> r == Step(st, FormShown)
    ensures k in st.courses && MayDeleteCours(actor, RoleOf(st.dir, actor), st.courses[k]) && post ==>
      r.reply == Removed && r.st == DeleteCours(st, k) && r.st.courses.Keys == st.courses.Keys - {k}
      && (forall i :: i in r.st.inscriptions ==> r.st.inscriptions[i].cours != k)
  {
    if k !in st.courses then Step(st, NotFound)
    else if !(st.courses[k].enseignant == actor || IsAdmin(st.dir.profiles[actor])) then Step(st, Forbidden)
    else if !post then Step(st, FormShown)
    else
      DeleteCoursValid(st, k);
      Step(DeleteCours(st, k), Removed)
  }

  /** Module creation: the course's teacher only. */
  function ModuleCreate(st: State, actor: UserId, k: Id, form: Option<ModuleData>, now: int): (r: Step)
    requires Valid(st) && actor in st.dir.users
    ensures Valid(r.st)
    ensures k !in st.courses ==> r == Step(st, NotFound)
    ensures k in st.courses && !OwnsCours(actor, st.courses[k]) ==> r == Step(st, Forbidden)
    ensures r.st != st ==> k in st.courses && OwnsCours(actor, st.courses[k]) && form.Some?
    ensures k in st.courses && OwnsCours(actor, st.courses[k]) && form.None? ==> r == Step(st, FormShown)
    ensures k in st.courses && OwnsCours(actor, st.courses[k]) && form.Some? ==>
      && r.reply.Saved? && r.reply.id !in st.modules
      && r.reply.id in r.st.modules && r.st.modules == st.modules[r.reply.id := r.st.modules[r.reply.id]]
      && r.st.modules[r.reply.id] == Module(k, form.value.titre, form.value.description, form.value.ordre, now)
      && r.st.(modules := st.modules, nextId := st.nextId) == st
  {
    if k !in st.courses then Step(st, NotFound)
    else if st.courses[k].enseignant != actor then Step(st, Forbidden)
    else if form.None? then Step(st, FormShown)
    else
      var f := form.value;
      var m := Module(k, f.titre, f.description, f.ordre, now);
      AddModuleValid(st, m);
      Step(st.(modules := st.modules[st.nextId := m], nextId := st.nextId + 1), Saved(st.nextId))
  }

  /** Adds an assignment whose form passed to course `k`. */
  function AddDevoir(st: State, k: Id, f: DevoirData, now: int): (r: Step)
    requires Valid(st) && k in st.courses && CleanDevoir(st, f).Ok?
    ensures Valid(r.st)
    ensures r.reply.Saved? && r.reply.id !in st.devoirs
    ensures r.reply.id in r.st.devoirs && r.st.devoirs == st.devoirs[r.reply.id := r.st.devoirs[r.reply.id]]
    ensures r.st.devoirs[r.reply.id] == Devoir(k, f.moduleId, f.titre, f.description, f.dateLimite, f.noteMax, now)
    ensures r.st.(devoirs := st.devoirs, nextId := st.nextId) == st
  {
    var d := Devoir(k, f.moduleId, f.titre, f.description, f.dateLimite, f.noteMax, now);
    AddDevoirValid(st, d);
    Step(st.(devoirs := st.devoirs[st.nextId := d], nextId := st.nextId + 1), Saved(st.nextId))
  }

  /** Assignment creation under a course: the course's teacher only. */
  function DevoirCreate(st: State, actor: UserId, k: Id, form: Option<DevoirData>, now: int): (r: Step)
    requires Valid(st) && actor in st.dir.users
    ensures Valid(r.st)
    ensures k !in st.courses ==> r == Step(st, NotFound)
    ensures k in st.courses && !OwnsCours(actor, st.courses[k]) ==> r == Step(st, Forbidden)
    ensures r.st != st ==> k in st.courses && OwnsCours(actor, st.courses[k]) && form.Some? && CleanDevoir(st, form.value).Ok?
    ensures k in st.courses && OwnsCours(actor, st.courses[k]) && (form.None? || CleanDevoir(st, form.value).Err?) ==>
      r == Step(st, FormShown)
    ensures k in st.courses && OwnsCours(actor, st.courses[k]) && form.Some? && CleanDevoir(st, form.value).Ok? ==>
      r == AddDevoir(st, k, form.value, now)
    ensures r.reply.Saved? ==> r.reply.id in r.st.devoirs && r.st.devoirs[r.reply.id].cours == k && r.reply.id !in st.devoirs
  {
    if k !in st.courses then Step(st, NotFound)
    else if st.courses[k].enseignant != actor then Step(st, Forbidden)
    else if form.None? || CleanDevoir(st, form.value).Err? then Step(st, FormShown)
    else AddDevoir(st, k, form.value, now)
  }

  /** The global assignment form: teachers only, and the course chosen must
      be one of the user's own (other courses are not offered as choices). */
  function DevoirCreateGlobal(st: State, actor: UserId, cours: Id, form: Option<DevoirData>, now: int): (r: Step)
    requires Valid(st) && actor in st.dir.users
    ensures Valid(r.st)
    ensures !MayCreateCours(RoleOf(st.dir, actor)) ==> r == Step(st, Forbidden)
    ensures r.st != st ==>
      && MayCreateCours(RoleOf(st.dir, actor))
      && cours in st.courses && OwnsCours(actor, st.courses[cours])
      && form.Some? && CleanDevoir(st, form.value).Ok?
    ensures MayCreateCours(RoleOf(st.dir, actor)) && cours in st.courses && OwnsCours(actor, st.courses[cours])
            && form.Some? && CleanDevoir(st, form.value).Ok? ==>
      r == AddDevoir(st, cours, form.value, now)
    ensures r.reply.Saved? ==> r.reply.id in r.st.devoirs && r.st.devoirs[r.reply.id].cours == cours && r.reply.id !in st.devoirs
  {
    if !IsEnseignant(st.dir.profiles[actor]) then Step(st, Forbidden)
    else if form.None? then Step(st, FormShown)
    else if cours !in st.courses || st.courses[cours].enseignant != actor then Step(st, FormShown)
    else if CleanDevoir(st, form.value).Err? then Step(st, FormShown)
    else AddDevoir(st, cours, form.value, now)
  }

  /** Event creation: administrators only. */
  function EvenementCreate(st: State, actor: UserId, form: Option<EvenementData>): (r: Step)
    requires Valid(st) && actor in st.dir.users
    ensures Valid(r.st)
    ensures !MayManageEvenements(RoleOf(st.dir, actor)) ==> r == Step(st, Forbidden)
    ensures r.st != st ==> MayManageEvenements(RoleOf(st.dir, actor)) && form.Some? && form.value.cours in st.courses
    ensures MayManageEvenements(RoleOf(st.dir, actor)) && form.Some? && form.value.cours in st.courses ==>
      && r.reply.Saved? && r.reply.id !in st.evenements
      && r.reply.id in r.st.evenements && r.st.evenements == st.evenements[r.reply.id := r.st.evenements[r.reply.id]]
      && EvenementMatchesForm(r.st.evenements[r.reply.id], form.value)
      && r.st.(evenements := st.evenements, nextId := st.nextId) == st
  {
    if !IsAdmin(st.dir.profiles[actor]) then Step(st, Forbidden)
    else if form.None? || form.value.cours !in st.courses then Step(st, FormShown)
    else
      var f := form.value;
      var e := Evenement(f.cours, f.titre, f.description, f.etype, f.dateDebut, f.dateFin, f.lieu);
      AddEvenementValid(st, e);
      Step(st.(evenements := st.evenements[st.nextId := e], nextId := st.nextId + 1), Saved(st.nextId))
  }

  /** Event update: administrators only; the role check comes before the lookup. */
  function EvenementUpdate(st: State, actor: UserId, k: Id, form: Option<EvenementData>): (r: Step)
    requires Valid(st) && actor in st.dir.users
    ensures Valid(r.st)
    ensures !MayManageEvenements(RoleOf(st.dir, actor)) ==> r == Step(st, Forbidden)
    ensures MayManageEvenements(RoleOf(st.dir, actor)) && k !in st.evenements ==> r == Step(st, NotFound)
    ensures r.st != st ==> MayManageEvenements(RoleOf(st.dir, actor)) && k in st.evenements && form.Some?
    ensures MayManageEvenements(RoleOf(st.dir, actor)) && k in st.evenements && (form.None? || form.value.cours !in st.courses) ==>
      r == Step(st, FormShown)
    ensures MayManageEvenements(RoleOf(st.dir, actor)) && k in st.evenements
            && form.Some? && form.value.cours in st.courses ==>
      && r.reply == Saved(k) && r.st.evenements.Keys == st.evenements.Keys
      && EvenementMatchesForm(r.st.evenements[k], form.value)
      && (forall j :: j in st.evenements && j != k ==> r.st.evenements[j] == st.evenements[j])
      && r.st.(evenements := st.evenements) == st
  {
    if !IsAdmin(st.dir.profiles[actor]) then Step(st, Forbidden)
    else if k !in st.evenements then Step(st, NotFound)
    else if form.None? || form.value.cours !in st.courses then Step(st, FormShown)
    else
      var f := form.value;
      var e := Evenement(f.cours, f.titre, f.description, f.etype, f.dateDebut, f.dateFin, f.lieu);
      UpdateEvenementValid(st, k, e);
      Step(st.(evenements := st.evenements[k := e]), Saved(k))
  }

  /** Event deletion: administrators only; a confirmed request removes the
      event and nothing else. */
  function EvenementDelete(st: State, actor: UserId, k: Id, post: bool): (r: Step)
    requires Valid(st) && actor in st.dir.users
    ensures Valid(r.st)
    ensures !MayManageEvenements(RoleOf(st.dir, actor)) ==> r == Step(st, Forbidden)
    ensures MayManageEvenements(RoleOf(st.dir, actor)) && k !in st.evenements ==> r == Step(st, NotFound)
    ensures r.st != st ==> MayManageEvenements(RoleOf(st.dir, actor)) && k in st.evenements && post
    ensures MayManageEvenements(RoleOf(st.dir, actor)) && k in st.evenements && !post ==> r == Step(st, FormShown)
    ensures MayManageEvenements(RoleOf(st.dir, actor)) && k in st.evenements && post ==>
      r.reply == Removed && r.st.evenements.Keys == st.evenements.Keys - {k}
      && (forall j :: j in r.st.evenements ==> r.st.evenements[j] == st.evenements[j])
      && r.st.(evenements := st.evenements) == st
  {
    if !IsAdmin(st.dir.profiles[actor]) then Step(st, Forbidden)
    else if k !in st.evenements then Step(st, NotFound)
    else if !post then Step(st, FormShown)
    else
      RemoveEvenementValid(st, k);
      Step(st.(evenements := st.evenements - {k}), Removed)
  }

  /** A teacher can neither edit, delete, nor add a module or an assignment
      to another teacher's course, whatever the form. */
  lemma ForeignCourseProtected(st: State, actor: UserId, k: Id, form: Option<CoursData>, post: bool,
                               mform: Option<ModuleData>, dform: Option<DevoirData>, now: int)
    requires Valid(st) && actor in st.dir.users && k in st.courses
    requires RoleOf(st.dir, actor) == Enseignant && st.courses[k].enseignant != actor
    ensures CoursUpdate(st, actor, k, form) == Step(st, Forbidden)
    ensures CoursDelete(st, actor, k, post) == Step(st, Forbidden)
    ensures ModuleCreate(st, actor, k, mform, now) == Step(st, Forbidden)
    ensures DevoirCreate(st, actor, k, dform, now) == Step(st, Forbidden)
  {
  }

  lemma AdminDeletesAnyCourse(st: State, actor: UserId, k: Id)
    requires Valid(st) && actor in st.dir.users && k in st.courses && RoleOf(st.dir, actor) == Admin
    ensures CoursDelete(st, actor, k, true).reply == Removed
    ensures k !in CoursDelete(st, actor, k, true).st.courses
  {
  }
}
